=== FILE: README.md ===
# Field task app: the task store and its screens' logic, in Dafny

This project models the logic of a React Native task manager in Dafny.

- **The task store** (`src/store/TaskContext.js`):
  - the reducer over the state `{tasks, activity, hydrated}` with its actions `HYDRATE`, `ADD_TASK`, `UPDATE_TASK`, `DELETE_TASK`, `REPLACE_ALL` and the default case;
  - the action creators `addTask`, `updateTask`, `toggleComplete`, `deleteTask` and `reloadFromStorage`. `addTask`, `updateTask` and `toggleComplete` build a task and an activity entry and dispatch both; `deleteTask` builds only an activity entry and dispatches it with the id; `reloadFromStorage` dispatches the loaded tasks and logs nothing.
- **The pure logic of the screens that drive the store**:
  - `groupTasks` of the task list: filter, split into Today / Upcoming / Overdue, sort, and assemble the sections;
  - the day tests of `src/utils/date.js`;
  - the detail screen's initial form, tag parsing, `onSave` validation and payload, and its toggle and delete buttons;
  - the login screen's e-mail pattern and `handleLogin` gate;
  - the activity log's `renderLine`.

Everything is modelled as pure functions over immutable datatypes, with two exceptions. `Login.IsValidEmail` is a method: a scanning loop proved to accept exactly what the regular expression matches. `Login.HandleLogin` is the method that calls it.

Inputs the model takes as parameters:
- the clock: every timestamp is an `int` reading, passed in;
- the uuid generator: fresh ids are passed in;
- the current local day, `today`;
- the locale renderings of dates and times, as strings.

Modules, one per source concern:

| module | file | models |
|---|---|---|
| `Wrappers` | wrappers.dfy | `Option`, for optional keys and `?.` / `??` |
| `Text` | text.dfy | `trim`, `toLowerCase`, `includes`, `split(',')`, `join` |
| `Dates` | dates.dfy | `src/utils/date.js` |
| `Tasks` | tasks.dfy | the records: task, draft, change set, activity entry |
| `Store` | store.dfy | `src/store/TaskContext.js` |
| `TaskList` | tasklist.dfy | `groupTasks` in `src/screens/TaskListScreen.js` |
| `TaskDetail` | taskdetail.dfy | `src/screens/TaskDetailScreen.js` |
| `Login` | login.dfy | `src/screens/LoginScreen.js` |
| `ActivityLog` | activitylog.dfy | `renderLine` in `src/screens/ActivityLogScreen.js` |

Where the code does something a caller might not expect, the model follows the code:
- **`updateTask` does not protect `id` and `createdAt`.** It spreads the change set over the previous task, so a change set may overwrite both. The reducer then replaces tasks by the *merged* task's id. A change set with a new id therefore replaces nothing, yet still logs an `update` entry (`Store.UpdateUnderNewIdIsLost`). Well-formedness is proved only for change sets that leave `id` and `createdAt` alone (`Store.Admissible`), which is all the detail screen ever sends.
- **`addTask` does not reject a blank title.** It trims the title and stores it. Only the detail screen refuses blank titles (`TaskDetail.OnSave`).
- **`updateTask` stores the title as given.** It does not trim it, so an edited title keeps its surrounding white space (`TaskDetail.SaveEditKeepsIdentity`).
- **`deleteTask` always logs.** It writes a `delete` entry even for an unknown id, with the title `''`.
- **Ids are not guaranteed unique.** The store never checks uniqueness. `updateTask` and `toggleComplete` merge the *first* task with the id (`find`), and the reducer writes the result over every task carrying the merged task's id. For a toggle, and for an update that leaves `id` alone, those are exactly the tasks with the given id. An update whose change set names another stored id overwrites that task instead, and the task being edited keeps its old value (`Store.UpdateUnderOtherIdOverwrites`). `deleteTask` removes every task with the id.
- **`trim` and `\s` know Unicode white space.** `Text.IsSpace` is the full set JavaScript uses: TAB, LF, VT, FF and CR, the byte-order mark, the line and paragraph separators, and every space separator (U+0020, U+00A0, U+1680, U+2000–U+200A, U+202F, U+205F, U+3000). A title of ideographic spaces is blank, and any of them, an em space say, inside an e-mail address makes it invalid (`Login.SpaceAnywhereIsInvalid`).

## Model

| member | source | states |
|---|---|---|
| Store.Reduce | src/store/TaskContext.js:15-34 | Hydration loads both lists and sets the flag. `ADD_TASK` puts the task in front, `UPDATE_TASK` replaces every task with its id, and `DELETE_TASK` removes every task with the id. Every other action leaves the activity log alone or puts exactly one entry in front of it. `REPLACE_ALL` replaces only the tasks. An unknown action changes nothing. |
| Store.ActivityOnlyGrows | src/store/TaskContext.js:15-34 | Over any sequence of actions without `HYDRATE`, the log grows by one entry per logging action, and the old log survives unchanged at its back. |
| Store.ReplaceById | src/store/TaskContext.js:22 | The `UPDATE_TASK` map keeps the length and position of every task. It swaps in the new task exactly where the ids agree. |
| Store.Without | src/store/TaskContext.js:26 | The `DELETE_TASK` filter keeps exactly the tasks whose id differs. |
| Store.Find | src/store/TaskContext.js:81 | The lookup fails exactly when no task has the id. When it succeeds, it returns the FIRST task with that id: every task before it carries another id. |
| Store.NewTask | src/store/TaskContext.js:56-66 | The new task has the given id and `createdAt == updatedAt == now`. Its title is trimmed. Each absent or empty optional field takes its default: `''`, Medium, no date, Todo, `[]`. |
| Store.AddTask | src/store/TaskContext.js:54-77 | The new task goes in front of the list and a `create` entry naming it in front of the log. Nothing else changes, and the new id is returned. |
| Store.Merge | src/store/TaskContext.js:84 | Each field comes from the change set when present and from the previous task otherwise. `updatedAt` is always the clock. |
| Store.UpdateTask | src/store/TaskContext.js:79-93 | An unknown id changes nothing. Otherwise the first task with the id is merged with the change set. The merged task replaces every task that carries the merged task's id, and all other tasks stay. One `update` entry goes in front of the log, carrying the merged title and the change set. |
| Store.UpdateUnderOtherIdOverwrites | src/store/TaskContext.js:21-24 | A change set that names another stored id overwrites the tasks with that id by the merged copy. The task being edited keeps its old value, and the entry is still logged under the edited id. |
| Store.UpdateReplacesOnlyThatId | src/store/TaskContext.js:79-93 | When the change set leaves the id alone, exactly the tasks with that id become the merged task. All other tasks are untouched. |
| Store.UpdateUnderNewIdIsLost | src/store/TaskContext.js:21-24 | A change set that carries an unused id leaves the task list as it was, yet the log still grows by one. |
| Store.ToggleComplete | src/store/TaskContext.js:95-109 | An unknown id changes nothing. Otherwise only the status and `updatedAt` of that task change: Done becomes Todo and anything else becomes Done. A `reopen` or `complete` entry is logged to match. |
| Store.NextStatus | src/store/TaskContext.js:99 | The next status is done exactly when the current one is not; from done it is `Todo`. |
| Store.FindAfterReplace | src/store/TaskContext.js:22 | After the replacement, a lookup of the id finds the replacement. |
| Store.ToggleTwiceRestoresStatus | src/store/TaskContext.js:95-109 | Toggling a Todo or Done task twice restores it except for `updatedAt`. The log gains a complete/reopen pair in order. |
| Store.DeleteTask | src/store/TaskContext.js:111-122 | Exactly the tasks with another id remain, and an absent id leaves the list as it was. One `delete` entry is always logged, with the task's title or `''`. |
| Store.WithoutAbsent | src/store/TaskContext.js:26 | Filtering out an id that is not present returns the list unchanged. |
| Store.WithoutAppend | src/store/TaskContext.js:26 | The delete filter distributes over concatenation. |
| Store.AddThenDeleteRestoresTasks | src/store/TaskContext.js:54-122 | Adding a task under a fresh id and then deleting that id gives back the original task list. The log keeps both entries. |
| Store.ReloadFromStorage | src/store/TaskContext.js:124-127 | The loaded tasks replace the list. The log and the hydration flag stay, and nothing is logged. |
| Store.Apply | src/store/TaskContext.js:54-122 | Any action-creator call that finds its task (every add and delete does) logs exactly one entry. Any other call leaves the whole state unchanged. |
| Store.RunLogsEachEffectiveOp | src/store/TaskContext.js:54-122 | Over a run of calls, the log grows by exactly the number of effective calls, and the old log stays at its back. |
| Store.ApplyPreservesWellFormed | src/store/TaskContext.js:54-122 | Given a clock no earlier than any `updatedAt`, a fresh id for adds, and change sets without `id`/`createdAt`: every call keeps ids unique and `createdAt <= updatedAt`. |
| Store.RunPreservesWellFormed | src/store/TaskContext.js:54-122 | Under the same conditions, a whole run keeps the store well formed. |
| Store.InitialRunsStayWellFormed | src/store/TaskContext.js:9-13 | Any admissible run that starts from the initial, empty state ends well formed. |
| Store.WithoutKeepsUnique | src/store/TaskContext.js:26 | Deleting keeps ids unique. |
| Store.FreshHeadKeepsWellFormed | src/store/TaskContext.js:20 | Prepending a stamped task with a fresh id keeps the list well formed. |
| Store.UpdateKeepsWellFormed | src/store/TaskContext.js:79-93 | An update that leaves `id` and `createdAt` alone keeps the list well formed. |
| Store.ToggleKeepsWellFormed | src/store/TaskContext.js:95-109 | A toggle keeps the list well formed. |
| Dates.FormatDate | src/utils/date.js:4-8 | An absent date renders as `''`. A present one renders as its locale rendering. |
| Dates.IsDueToday | src/utils/date.js:16-25 | A date is due today exactly when it is present and falls on the current local day. |
| Dates.IsOverdue | src/utils/date.js:27-32 | A date is overdue exactly when it is present and falls strictly before the current local day. |
| Dates.IsUpcoming | src/utils/date.js:34-39 | A date is upcoming when it is absent or falls strictly after the current local day. |
| Dates.DayClassesPartition | src/utils/date.js:16-39 | An absent date is only upcoming. A present date is exactly one of due today, overdue or upcoming. |
| Text.IsSpace | src/store/TaskContext.js:58-59 | White space as `trim` and `\s` see it, including the Unicode space separators U+1680, U+2000–U+200A, U+202F, U+205F and U+3000. |
| Text.Trim | src/store/TaskContext.js:58-59 | The result is the input with its leading and then its trailing white space removed. It has no white space at either end, and it is empty exactly when the input is all white space. |
| Text.TrimCutsOnlySpace | src/store/TaskContext.js:58-59 | The trim is an infix of the input, and everything outside it is white space. |
| Text.TrimIsUnique | src/store/TaskContext.js:58-59 | Any non-empty infix with no white space at its ends, cut out by removing only white space, is the trim. So `trim` has exactly one possible result. |
| Text.TrimAddsNothing | src/screens/TaskDetailScreen.js:38 | Trimming introduces no character that was not already there. |
| Text.TrimLowerCommute | src/screens/TaskListScreen.js:20 | Lower-casing before or after trimming gives the same query. |
| Text.LowerIdempotent | src/screens/TaskListScreen.js:20 | Lower-casing twice is lower-casing once. |
| Text.Lower | src/screens/TaskListScreen.js:20-25 | `toLowerCase` keeps the length and maps each character through the ASCII lower-casing, which never turns white space into anything else or back. |
| Text.Contains | src/screens/TaskListScreen.js:24-25 | `includes`: the needle occurs as a contiguous run starting at some position of the haystack; the empty needle occurs everywhere. |
| Text.Split | src/screens/TaskDetailScreen.js:38 | Splitting yields at least one piece and no piece contains the separator. |
| Text.Join | src/screens/TaskDetailScreen.js:21 | `join`: the parts with the separator between neighbours; no parts give `''` and one part gives itself. `Text.JoinSplit` and `Text.SplitJoin` make it the inverse of `Text.Split`. |
| Text.JoinSplit | src/screens/TaskDetailScreen.js:38 | Joining the pieces of a split with the separator gives back the text. |
| Text.SplitJoin | src/screens/TaskDetailScreen.js:21 | Splitting a join of separator-free parts gives back the parts. |
| TaskList.FilterBy | src/screens/TaskListScreen.js:21-32 | The filter keeps exactly the elements satisfying the test. |
| TaskList.FilterByAppend | src/screens/TaskListScreen.js:21-32 | Filtering a concatenation filters each part and concatenates the results, so the kept tasks keep their input order. |
| TaskList.NormalizeQuery | src/screens/TaskListScreen.js:20 | The query the filter uses is the typed query trimmed, then lower-cased. |
| TaskList.Matches | src/screens/TaskListScreen.js:21-31 | A task passes the filter exactly when it passes the text, priority and status tests together. |
| TaskList.MatchesText | src/screens/TaskListScreen.js:22-25 | An empty normalised query matches; otherwise the lower-cased title or description must contain it. |
| TaskList.MatchesPriority | src/screens/TaskListScreen.js:26-27 | `All` matches every task; any other filter only tasks whose priority has that name. |
| TaskList.MatchesStatus | src/screens/TaskListScreen.js:28-30 | `All` matches every task, `Done` only done tasks, and any other filter value only tasks whose status is `Todo`. |
| TaskList.FilterPartition | src/screens/TaskListScreen.js:34-40 | Three disjoint, covering tests split a list into three filters whose multisets add up to the list. |
| TaskList.Bucket | src/screens/TaskListScreen.js:34-40 | A filtered task is in Today when its date is due today, otherwise in Overdue when it is overdue and not done, and otherwise in Upcoming. |
| TaskList.BucketFacts | src/screens/TaskListScreen.js:34-40 | An overdue placement is never a Done task. A task without a date is upcoming. A Done task past its date falls to Upcoming. |
| TaskList.TodayGroup | src/screens/TaskListScreen.js:34 | The Today group holds exactly the filtered tasks whose bucket is Today. |
| TaskList.OverdueGroup | src/screens/TaskListScreen.js:35-37 | The Overdue group holds exactly the filtered tasks whose bucket is Overdue. |
| TaskList.UpcomingGroup | src/screens/TaskListScreen.js:38-40 | The Upcoming group holds exactly the filtered tasks in neither other group, which is exactly those whose bucket is Upcoming. |
| TaskList.SortKey | src/screens/TaskListScreen.js:42-50 | The comparator's key is the due date's time value, or `Number.MAX_SAFE_INTEGER` for a task without a date. |
| TaskList.Insert | src/screens/TaskListScreen.js:42-54 | Inserting into a list sorted by due time keeps it sorted and adds exactly the element. |
| TaskList.SortByDue | src/screens/TaskListScreen.js:42-54 | The sorted list is ordered by due time, with a missing date counting as `Number.MAX_SAFE_INTEGER`, and is a permutation of the input. |
| TaskList.UndatedLast | src/screens/TaskListScreen.js:42-50 | With valid time values, tasks without a due date come after every dated task. |
| TaskList.Sections | src/screens/TaskListScreen.js:56-61 | There are one to three sections, in the order Today, Upcoming, Overdue. Each is non-empty, or the whole result is the single empty `Tasks` section. |
| TaskList.GroupTasks | src/screens/TaskListScreen.js:19-62 | The sections are sorted by due time, in the fixed order, and never empty unless they are the placeholder. |
| TaskList.SectionsPlacement | src/screens/TaskListScreen.js:56-61 | A task appears in a named section exactly when it is in the corresponding group. |
| TaskList.GroupMembership | src/screens/TaskListScreen.js:34-40 | A task is in the Today, Overdue or Upcoming group exactly when it passed the filter and its bucket is that group. |
| TaskList.Placement | src/screens/TaskListScreen.js:19-62 | A task appears under a section title exactly when it passes all three filters and its bucket has that title. |
| TaskList.SortKeepsMembers | src/screens/TaskListScreen.js:52-54 | Sorting neither drops nor adds tasks. |
| TaskList.GroupsPartitionFiltered | src/screens/TaskListScreen.js:34-40 | The three groups together hold the filtered tasks exactly once each. |
| TaskList.TextFilterFacts | src/screens/TaskListScreen.js:20-25 | The text filter ignores the query's case. A blank query matches every task. |
| TaskDetail.InitialForm | src/screens/TaskDetailScreen.js:15-21 | A new task starts blank with priority Medium. An edit starts from the stored fields, with the tags joined by `", "`. |
| TaskDetail.Existing | src/screens/TaskDetailScreen.js:15 | Without a route id there is no task on screen; with one, it is the first stored task with that id, or none. |
| TaskDetail.CleanPiece | src/screens/TaskDetailScreen.js:38 | A comma-free piece yields no tag exactly when it is all white space, and otherwise yields the single tag that is the piece trimmed. |
| TaskDetail.CleanPieces | src/screens/TaskDetailScreen.js:38 | Trimming the pieces and dropping empty ones yields only clean tags, never more than there were pieces, and none at all exactly when every piece is blank. |
| TaskDetail.CleanPiecesYield | src/screens/TaskDetailScreen.js:38 | The trim of every non-blank piece is among the tags, and every tag is the trim of a non-blank piece. |
| TaskDetail.ParseTags | src/screens/TaskDetailScreen.js:38 | Every parsed tag is non-empty, trimmed and comma-free. |
| TaskDetail.PayloadOf | src/screens/TaskDetailScreen.js:33-39 | The payload takes the title untrimmed, the description, priority and due date from the form, and the parsed tags. |
| TaskDetail.AsChanges | src/screens/TaskDetailScreen.js:42 | As a change set for `updateTask`, the payload sets title, description, priority, tags and the due date (null when none was chosen), and never `id`, `status` or the timestamps. |
| TaskDetail.AsDraft | src/screens/TaskDetailScreen.js:44 | As a draft for `addTask`, the payload gives every field but `status`, which `addTask` then defaults. |
| TaskDetail.CleanPiecesAppend | src/screens/TaskDetailScreen.js:38 | Cleaning distributes over concatenation of pieces. |
| TaskDetail.ParseTagsIgnoresLeadingSpace | src/screens/TaskDetailScreen.js:38 | A leading space before the text does not change the parsed tags. |
| TaskDetail.TagsRoundTrip | src/screens/TaskDetailScreen.js:21-38 | Showing clean tags joined by `", "` and parsing the text again gives the same tags. |
| TaskDetail.ParseTagsIdempotent | src/screens/TaskDetailScreen.js:21-38 | Re-parsing the shown form of parsed tags changes nothing. |
| TaskDetail.OnSave | src/screens/TaskDetailScreen.js:28-48 | A blank title blocks the save. Otherwise an existing task is updated under its own id and a new one is added. The payload carries the form's title and description as typed, its priority, its due date (null exactly when none was chosen) and exactly the parsed tags, which are clean. It never carries an id, timestamps or a status. |
| TaskDetail.Save | src/screens/TaskDetailScreen.js:41-46 | The save outcome applied to the store: nothing for a blank title, `updateTask` on the edited id, or `addTask` with the fresh id. |
| TaskDetail.BlankTitleChangesNothing | src/screens/TaskDetailScreen.js:28-32 | A blank title leaves the store untouched. |
| TaskDetail.SaveEditKeepsIdentity | src/screens/TaskDetailScreen.js:33-42 | Saving an edit rewrites, in place, only the tasks with that id. Each becomes the first task with that id, carrying that task's id, `createdAt` and status, with the form's values, the untrimmed title and the new `updatedAt`. One entry is logged. |
| TaskDetail.SaveNewTask | src/screens/TaskDetailScreen.js:43-46 | Saving a new task puts it in front with the fresh id, the trimmed title and description, status Todo, and the form's priority, date and parsed tags. |
| TaskDetail.OnToggleComplete | src/screens/TaskDetailScreen.js:61-65 | Without a task on screen nothing happens. With one whose id is stored, every task with that id becomes the first such task with `updatedAt` set to the clock and its status flipped: `Done` becomes `Todo` and anything else becomes `Done`. Every other task stays as it was. One entry with the fresh entry id, that task's title and the clock goes in front of the log. It is `reopen` when the task was done and `complete` otherwise. An id no longer stored changes nothing. |
| TaskDetail.OnDelete | src/screens/TaskDetailScreen.js:50-59 | Without a task on screen, or without confirmation, nothing happens. Once confirmed, no task with its id is left, the others stay, and the hydration flag is unchanged. One `delete` entry with the fresh entry id, the task id and the clock goes in front of the log. Its title is that of the first stored task with the id, or `''` if there is none. |
| Login.EmailPattern | src/screens/LoginScreen.js:17 | The regular expression read directly: some `@` and some later `.` split the string into three non-empty runs, and every other character is neither white space nor `@`. |
| Login.IsValidEmail | src/screens/LoginScreen.js:17 | The scanning check accepts exactly the strings the regular expression `^[^\s@]+@[^\s@]+\.[^\s@]+$` matches, with `\s` the full JavaScript white-space set. |
| Login.SpaceAnywhereIsInvalid | src/screens/LoginScreen.js:17 | An address with a white-space character (the full JavaScript `\s` set, em space included) at any position does not match. |
| Login.PatternIsShape | src/screens/LoginScreen.js:17 | The pattern accepts exactly the same strings as the description by parts: a non-empty local part, one `@`, and a domain with an inner `.`, with no white space or other `@` anywhere. |
| Login.PatternHasOneAt | src/screens/LoginScreen.js:17 | An accepted address has no white space and exactly one `@`. |
| Login.HandleLogin | src/screens/LoginScreen.js:19-29 | A blank field reports "email required". A non-blank field the pattern rejects reports "invalid". Exactly the pattern-valid text signs in, untrimmed and free of white space. |
| Login.BlankIsNotAnEmail | src/screens/LoginScreen.js:19-27 | A blank string never matches the pattern. |
| Login.SurroundingSpaceIsInvalid | src/screens/LoginScreen.js:17-27 | Leading or trailing white space makes an address invalid, because it is not trimmed before the check. |
| ActivityLog.MetaTitle | src/screens/ActivityLogScreen.js:19 | The title is the entry's `meta.title` when present, and `''` when the meta or the title is missing. |
| ActivityLog.RenderLine | src/screens/ActivityLogScreen.js:17-28 | A known type's line is its verb and opening quote, then the title verbatim, then the closing text and the time. Any other type's line is the type, then ` - `, then the time. |
| ActivityLog.TitleReadsBack | src/screens/ActivityLogScreen.js:20-25 | The title can be read back from a known type's line, whatever characters it holds. |
| ActivityLog.MissingTitleRendersEmpty | src/screens/ActivityLogScreen.js:19 | A missing meta, a missing title and an empty title render the same line. |
| ActivityLog.KnownKindsDiffer | src/screens/ActivityLogScreen.js:20-25 | Two known types never render the same line for the same title and time. |
| ActivityLog.UnknownKindNeverLooksKnown | src/screens/ActivityLogScreen.js:20-26 | An unknown type's line never equals a known type's line for the same time. |
| ActivityLog.StoreKindsRender | src/screens/ActivityLogScreen.js:21-25 | Each type the store writes opens with its own verb, and a completion says "as complete" before the time. |

## Left out

- React rendering, navigation, theming, `Alert` dialogs and the date picker. They carry no logic beyond the branches modelled above. The confirmation alert of `onDelete` becomes a `confirmed` flag.
- Persistence: AsyncStorage, JSON encoding, the persistence effect after hydration, and the load in `HYDRATE` / `reloadFromStorage`. The loaded lists are parameters.
- The uuid generator, `new Date()`, `toISOString()` and the locale formatters. Timestamps are integer clock readings, ids are passed in, and rendered dates and times are given strings.
- Analytics `logEvent` calls, `AuthContext.signIn` and its session storage, and `MainApplication.kt`. These are calls into code outside this model. `Login.HandleLogin` returns the outcome instead of signing in.
- React's asynchronous dispatch. The creators read `state.tasks` from the last render, so two calls within one render can both see a stale list. The model applies each call to the current state.
- The React hooks' rendering order is not modelled, nor is the screen's `navigation.setParams` / `goBack`.
- Dates.IsDueToday: local-time `startOfDay` and time zones are abstracted to a given local day number per date. Invalid ISO strings (NaN dates) are not modelled.
- Tasks.Priority: only the three values the screens offer are modelled. A stored priority outside them, or an empty one (which `||` would default), is not represented.
- Text.Lower: lower-cases ASCII letters only. JavaScript's full Unicode case mapping is not modelled.
- Store.DeleteTask: the ensures state which tasks remain, not their order. That the filter keeps the survivors in order follows from `Store.WithoutAppend`.
- Store.Merge: a key present in the change set with the value `undefined` (which the spread would copy) is not representable. Absent and present keys are modelled.
- TaskList.SortByDue: modelled as a stable insertion sort by the same key. `Array.prototype.sort` is stable in current engines, so the order is the same. The subtraction comparator's behaviour on NaN keys is not modelled.

=== FILE: activitylog.dfy ===
/** One line of the activity log (`renderLine` in
    `src/screens/ActivityLogScreen.js`). The locale rendering of the entry's
    timestamp is taken as a given string `time`. */
module ActivityLog {
  import opened Wrappers
  import opened Tasks

  /** The `type` string an entry carries. */
  function KindName(k: ActivityKind): string {
    match k
    case Create => "create"
    case Update => "update"
    case Complete => "complete"
    case Reopen => "reopen"
    case Delete => "delete"
    case OtherKind(name) => name
  }

  /** `a?.meta?.title ?? ''` */
  function MetaTitle(a: ActivityEntry): (r: string)
    ensures a.meta.Some? && a.meta.value.title.Some? ==> r == a.meta.value.title.value
    ensures a.meta.None? || a.meta.value.title.None? ==> r == ""
  {
    match a.meta
    case None => ""
    case Some(m) => m.title.GetOr("")
  }

  /** The five types the line template knows. */
  predicate Known(name: string) {
    name in {"create", "update", "complete", "reopen", "delete"}
  }

  /** What a known type's line shows before the quoted title. */
  function Opening(name: string): string
    requires Known(name)
  {
    if name == "create" then "Created \""
    else if name == "update" then "Updated \""
    else if name == "complete" then "Marked \""
    else if name == "reopen" then "Reopened \""
    else "Deleted \""
  }

  /** What a known type's line shows after the quoted title. */
  function Closing(name: string, time: string): string
    requires Known(name)
  {
    if name == "complete" then "\" as complete at " + time else "\" at " + time
  }

  /** `renderLine`: a known type gives its verb, the title in double quotes
      and the time; any other type gives the type itself, a dash and the
      time. */
  function RenderLine(a: ActivityEntry, time: string): (r: string)
    ensures Known(KindName(a.kind)) ==>
      var o, c := Opening(KindName(a.kind)), Closing(KindName(a.kind), time);
      && |r| == |o| + |MetaTitle(a)| + |c|
      && r[..|o|] == o
      && r[|o|..|o| + |MetaTitle(a)|] == MetaTitle(a)
      && r[|o| + |MetaTitle(a)|..] == c
    ensures !Known(KindName(a.kind)) ==> r == KindName(a.kind) + " - " + time
  {
    var title := MetaTitle(a);
    var name := KindName(a.kind);
    if Known(name) then
      var o, c := Opening(name), Closing(name, time);
      o + title + c
    else
      name + " - " + time
  }

  /** The title shown in a known type's line, read back from the line. */
  function TitleShown(line: string, name: string, time: string): string
    requires Known(name)
    requires |Opening(name)| + |Closing(name, time)| <= |line|
  {
    line[|Opening(name)|..|line| - |Closing(name, time)|]
  }

  /** The line of a known type shows the entry's title verbatim, whatever
      characters (quotes included) it holds. */
  lemma TitleReadsBack(a: ActivityEntry, time: string)
    requires Known(KindName(a.kind))
    ensures var r := RenderLine(a, time);
      && |Opening(KindName(a.kind))| + |Closing(KindName(a.kind), time)| <= |r|
      && TitleShown(r, KindName(a.kind), time) == MetaTitle(a)
  {
  }

  /** Entries that differ only in a missing `meta`, a missing title or an
      empty title render the same line. */
  lemma MissingTitleRendersEmpty(a: ActivityEntry, time: string)
    ensures RenderLine(a.(meta := None), time) == RenderLine(a.(meta := Some(Meta(Some(""), None))), time)
    ensures a.meta.Some? ==> RenderLine(a.(meta := Some(a.meta.value.(title := None))), time) == RenderLine(a.(meta := None), time)
  {
  }

  /** Two known types with the same title and time never share a line: the
      first letters of the verbs differ. */
  lemma KnownKindsDiffer(a: ActivityEntry, b: ActivityEntry, time: string)
    requires Known(KindName(a.kind)) && Known(KindName(b.kind))
    requires KindName(a.kind) != KindName(b.kind)
    ensures RenderLine(a, time) != RenderLine(b, time)
  {
    var ra, rb := RenderLine(a, time), RenderLine(b, time);
    assert ra[0] == Opening(KindName(a.kind))[0];
    assert rb[0] == Opening(KindName(b.kind))[0];
  }

  /** The line of an unknown type cannot be mistaken for the line of a known
      one with the same time: just before the time, one has the `t` of "at"
      and the other the dash. */
  lemma UnknownKindNeverLooksKnown(a: ActivityEntry, b: ActivityEntry, time: string)
    requires !Known(KindName(a.kind)) && Known(KindName(b.kind))
    ensures RenderLine(a, time) != RenderLine(b, time)
  {
    var ra, rb := RenderLine(a, time), RenderLine(b, time);
    var c := Closing(KindName(b.kind), time);
    var name := KindName(a.kind);
    assert rb[|rb| - |time| - 2] == c[|c| - |time| - 2] == 't';
    assert ra == name + " - " + time;
    assert ra[|ra| - |time| - 2] == (name + " - " + time)[|name| + 1] == '-';
  }

  /** Each kind the store writes renders with its own verb; a completion
      also says "as complete" before the time. */
  lemma StoreKindsRender(a: ActivityEntry, time: string)
    ensures a.kind == Create ==> RenderLine(a, time)[..9] == "Created \""
    ensures a.kind == Update ==> RenderLine(a, time)[..9] == "Updated \""
    ensures a.kind == Complete ==> RenderLine(a, time)[..8] == "Marked \""
    ensures a.kind == Complete ==>
      var r := RenderLine(a, time);
      r[|r| - |time| - 17..] == "\" as complete at " + time
    ensures a.kind == Reopen ==> RenderLine(a, time)[..10] == "Reopened \""
    ensures a.kind == Delete ==> RenderLine(a, time)[..9] == "Deleted \""
  {
    var name := KindName(a.kind);
    if Known(name) {
      var r := RenderLine(a, time);
      var o := Opening(name);
      assert r[..|o|] == o;
      if a.kind == Complete {
        var c := Closing(name, time);
        assert |c| == |time| + 17;
        assert r[|r| - |c|..] == c;
      }
    }
  }
}

=== FILE: dates.dfy ===
/** The day tests of `src/utils/date.js`. A due date is either absent or a
    `Moment`: the local calendar day it falls on and its millisecond time
    value. "Today" is the local calendar day of the clock, passed in. */
module Dates {
  import opened Wrappers

  /** `day` numbers local calendar days (what `startOfDay` normalises a date
      to); `time` is `Date.prototype.getTime`. */
  datatype Moment = Moment(day: int, time: int)

  /** ECMAScript time values lie within 8.64e15 milliseconds of the epoch. */
  const MaxTimeValue: int := 8_640_000_000_000_000

  predicate ValidMoment(m: Moment) {
    -MaxTimeValue <= m.time <= MaxTimeValue
  }

  /** `formatDate`: an absent date renders as the empty string; a present one
      as its locale rendering `rendered`, which the model takes as given. */
  function FormatDate(d: Option<Moment>, rendered: string): (r: string)
    ensures d.None? ==> r == ""
    ensures d.Some? ==> r == rendered
  {
    match d
    case None => ""
    case Some(_) => rendered
  }

  /** `isDueToday`: the date falls on the current local day. */
  predicate IsDueToday(d: Option<Moment>, today: int) {
    d.Some? && d.value.day == today
  }

  /** `isOverdue`: the date falls strictly before the current local day. */
  predicate IsOverdue(d: Option<Moment>, today: int) {
    d.Some? && d.value.day < today
  }

  /** `isUpcoming`: no date at all, or a date strictly after today. */
  predicate IsUpcoming(d: Option<Moment>, today: int) {
    d.None? || d.value.day > today
  }

  /** An absent date is neither due today nor overdue, but counts as
      upcoming; a present date is in exactly one of the three classes. */
  lemma DayClassesPartition(d: Option<Moment>, today: int)
    ensures d.None? ==> !IsDueToday(d, today) && !IsOverdue(d, today) && IsUpcoming(d, today)
    ensures d.Some? ==>
      (IsDueToday(d, today) && !IsOverdue(d, today) && !IsUpcoming(d, today))
      || (!IsDueToday(d, today) && IsOverdue(d, today) && !IsUpcoming(d, today))
      || (!IsDueToday(d, today) && !IsOverdue(d, today) && IsUpcoming(d, today))
  {
  }
}

=== FILE: login.dfy ===
/** The sign-in gate of `src/screens/LoginScreen.js`: the e-mail pattern and
    the checks `handleLogin` makes before it calls `signIn`. */
module Login {
  import Text

  /** A character the class `[^\s@]` accepts. */
  predicate Plain(c: char) {
    !Text.IsSpace(c) && c != '@'
  }

  predicate AllPlain(s: string) {
    forall k | 0 <= k < |s| :: Plain(s[k])
  }

  /** `s` matches `^[^\s@]+@[^\s@]+\.[^\s@]+$` with the `@` at index `at`
      and the literal `.` at index `dot`: every other character is plain and
      each of the three runs is non-empty. */
  predicate MatchesAt(s: string, at: int, dot: int) {
    && 0 < at && at + 1 < dot && dot + 1 < |s|
    && s[at] == '@' && s[dot] == '.'
    && forall k | 0 <= k < |s| && k != at :: Plain(s[k])
  }

  /** The regular expression of `isValidEmail`, read directly: some choice of
      the `@` and the `.` makes the whole string match. */
  predicate EmailPattern(s: string) {
    exists at, dot | 0 <= at < |s| && 0 <= dot < |s| :: MatchesAt(s, at, dot)
  }

  /** The same language described by parts: a non-empty local part without
      white space or `@`, one `@`, and a domain without white space or `@`
      that has a `.` somewhere other than its first or last character. */
  predicate EmailShape(s: string) {
    exists at | 0 < at < |s| ::
      && s[at] == '@'
      && AllPlain(s[..at])
      && AllPlain(s[at + 1..])
      && InnerDot(s[at + 1..])
  }

  /** A `.` with something on each side of it. */
  predicate InnerDot(d: string) {
    exists j | 0 < j < |d| - 1 :: d[j] == '.'
  }

  /** The `@` of a match is the first `@` of the string: every other
      character is plain. */
  lemma AtIsFirst(s: string, at: int, dot: int, first: int)
    requires MatchesAt(s, at, dot)
    requires 0 <= first < |s| && s[first] == '@'
    ensures at == first
  {
  }

  /** `isValidEmail`: scans for the `@`, checks that every other character
      is plain, then looks for a `.` with a character on each side within
      the domain. */
  method IsValidEmail(s: string) returns (ok: bool)
    ensures ok <==> EmailPattern(s)
  {
    var at := 0;
    while at < |s| && s[at] != '@'
      invariant 0 <= at <= |s|
      invariant forall k | 0 <= k < at :: s[k] != '@'
    {
      at := at + 1;
    }
    if at == 0 || at == |s| {
      NoMatchWithoutInnerAt(s, at);
      return false;
    }
    var k := 0;
    while k < |s|
      invariant 0 <= k <= |s|
      invariant forall m | 0 <= m < k && m != at :: Plain(s[m])
    {
      if k != at && !Plain(s[k]) {
        NoMatchWithImpure(s, at, k);
        return false;
      }
      k := k + 1;
    }
    var j := at + 2;
    while j < |s| - 1
      invariant at + 2 <= j
      invariant forall m | at + 2 <= m < j && m < |s| :: s[m] != '.'
      decreases |s| - j
    {
      if s[j] == '.' {
        assert MatchesAt(s, at, j);
        return true;
      }
      j := j + 1;
    }
    NoMatchWithoutDot(s, at);
    return false;
  }

  /** With no `@`, or with `@` as the first character, nothing matches. */
  lemma NoMatchWithoutInnerAt(s: string, first: int)
    requires 0 <= first <= |s|
    requires forall k | 0 <= k < first :: s[k] != '@'
    requires first == 0 || first == |s|
    requires first < |s| ==> s[first] == '@'
    ensures !EmailPattern(s)
  {
    forall at, dot | 0 <= at < |s| && 0 <= dot < |s|
      ensures !MatchesAt(s, at, dot)
    {
      if first < |s| && MatchesAt(s, at, dot) {
        AtIsFirst(s, at, dot, first);
      }
    }
  }

  /** A character other than the first `@` that is white space or another
      `@` rules out every match. */
  lemma NoMatchWithImpure(s: string, first: int, bad: int)
    requires 0 <= first < |s| && s[first] == '@'
    requires 0 <= bad < |s| && bad != first && !Plain(s[bad])
    ensures !EmailPattern(s)
  {
    forall at, dot | 0 <= at < |s| && 0 <= dot < |s|
      ensures !MatchesAt(s, at, dot)
    {
      if MatchesAt(s, at, dot) {
        AtIsFirst(s, at, dot, first);
      }
    }
  }

  /** Without a `.` between the second character after the `@` and the
      second-to-last character, nothing matches. */
  lemma NoMatchWithoutDot(s: string, first: int)
    requires 0 <= first < |s| && s[first] == '@'
    requires forall k | 0 <= k < first :: s[k] != '@'
    requires forall m | first + 2 <= m < |s| - 1 :: s[m] != '.'
    ensures !EmailPattern(s)
  {
    forall at, dot | 0 <= at < |s| && 0 <= dot < |s|
      ensures !MatchesAt(s, at, dot)
    {
      if MatchesAt(s, at, dot) {
        AtIsFirst(s, at, dot, first);
      }
    }
  }

  /** The pattern and the description by parts accept the same strings. */
  lemma PatternIsShape(s: string)
    ensures EmailPattern(s) <==> EmailShape(s)
  {
    if EmailPattern(s) {
      var at, dot :| 0 <= at < |s| && 0 <= dot < |s| && MatchesAt(s, at, dot);
      var d := s[at + 1..];
      assert d[dot - at - 1] == '.';
      assert forall k | 0 <= k < at :: s[..at][k] == s[k];
      assert forall k | 0 <= k < |d| :: d[k] == s[at + 1 + k];
      assert AllPlain(s[..at]);
    }
    if EmailShape(s) {
      var at :| 0 < at < |s| && s[at] == '@' && AllPlain(s[..at]) && AllPlain(s[at + 1..]) && InnerDot(s[at + 1..]);
      var d := s[at + 1..];
      var j :| 0 < j < |d| - 1 && d[j] == '.';
      forall k | 0 <= k < |s| && k != at
        ensures Plain(s[k])
      {
        if k < at {
          assert s[..at][k] == s[k];
        } else {
          assert d[k - at - 1] == s[k];
        }
      }
      assert MatchesAt(s, at, at + 1 + j);
    }
  }

  /** A string the pattern accepts has exactly one `@` and no white space. */
  lemma PatternHasOneAt(s: string, at: int, dot: int)
    requires MatchesAt(s, at, dot)
    ensures Text.NoSpace(s)
    ensures forall k | 0 <= k < |s| :: s[k] == '@' <==> k == at
  {
    forall k | 0 <= k < |s|
      ensures !Text.IsSpace(s[k])
    {
      if k != at {
        assert Plain(s[k]);
      }
    }
  }

  /** What the Sign In button does: a blank field is reported, an e-mail the
      pattern rejects is reported, anything else signs in with the text as
      typed (it is not trimmed). */
  datatype LoginOutcome = EmailRequired | InvalidEmail | SignIn(email: string)

  /** `handleLogin` */
  method HandleLogin(email: string) returns (o: LoginOutcome)
    ensures o == EmailRequired <==> Text.AllSpace(email)
    ensures o.SignIn? <==> EmailPattern(email)
    ensures o.InvalidEmail? <==> !Text.AllSpace(email) && !EmailPattern(email)
    ensures o.SignIn? ==> o.email == email && Text.NoSpace(email)
  {
    if Text.Trim(email) == "" {
      BlankIsNotAnEmail(email);
      return EmailRequired;
    }
    var ok := IsValidEmail(email);
    if !ok {
      return InvalidEmail;
    }
    ghost var at, dot :| 0 <= at < |email| && 0 <= dot < |email| && MatchesAt(email, at, dot);
    PatternHasOneAt(email, at, dot);
    return SignIn(email);
  }

  /** A blank string never matches the pattern. */
  lemma BlankIsNotAnEmail(s: string)
    requires Text.AllSpace(s)
    ensures !EmailPattern(s)
  {
    assert |s| > 0 ==> !Plain(s[0]);
  }

  /** White space anywhere, Unicode space separators such as the em space
      (U+2003) included, makes the address invalid. */
  lemma SpaceAnywhereIsInvalid(s: string, k: int)
    requires 0 <= k < |s| && Text.IsSpace(s[k])
    ensures !EmailPattern(s)
  {
  }

  /** White space around an otherwise valid address is not trimmed away, so
      the address is refused as invalid rather than signed in. */
  lemma SurroundingSpaceIsInvalid(s: string, c: char)
    requires Text.IsSpace(c)
    ensures !EmailPattern([c] + s)
    ensures !EmailPattern(s + [c])
  {
    assert !Plain(([c] + s)[0]);
    assert !Plain((s + [c])[|s|]);
  }
}

=== FILE: store.dfy ===
/** The task store of `src/store/TaskContext.js`: the reducer over the
    state `{tasks, activity, hydrated}` and the four action creators that build
    the dispatched actions. The clock reading `now` and the fresh uuids are
    parameters; persistence and analytics are not modelled. */
module Store {
  import opened Wrappers
  import opened Tasks
  import Text

  datatype State = State(tasks: seq<Task>, activity: seq<ActivityEntry>, hydrated: bool)

  /** `initialState`: nothing loaded yet, and trivially well formed. */
  const Initial: State := State([], [], false)

  /** The dispatched actions; `Unknown` is an action of any other `type`. */
  datatype Action =
    | Hydrate(loadedTasks: seq<Task>, loadedActivity: seq<ActivityEntry>)
    | AddTaskAction(task: Task, entry: ActivityEntry)
    | UpdateTaskAction(task: Task, entry: ActivityEntry)
    | DeleteTaskAction(id: Id, entry: ActivityEntry)
    | ReplaceAll(replacement: seq<Task>)
    | Unknown(kind: string)

  /** The actions that carry an activity entry. */
  predicate Logs(a: Action) {
    a.AddTaskAction? || a.UpdateTaskAction? || a.DeleteTaskAction?
  }

  /** `tasks.map(t => t.id === task.id ? task : t)` */
  function ReplaceById(tasks: seq<Task>, task: Task): (r: seq<Task>)
    ensures |r| == |tasks|
    ensures forall i | 0 <= i < |tasks| :: r[i] == (if tasks[i].id == task.id then task else tasks[i])
  {
    seq(|tasks|, i requires 0 <= i < |tasks| => if tasks[i].id == task.id then task else tasks[i])
  }

  /** `tasks.filter(t => t.id !== id)`: exactly the tasks with another id. */
  function Without(tasks: seq<Task>, id: Id): (r: seq<Task>)
    ensures |r| <= |tasks|
    ensures forall t :: t in r <==> t in tasks && t.id != id
  {
    if |tasks| == 0 then []
    else (if tasks[0].id == id then [] else [tasks[0]]) + Without(tasks[1..], id)
  }

  /** `reducer`. Apart from HYDRATE, no action touches an existing activity
      entry: the log is either left alone or gains one entry at the front.
      REPLACE_ALL swaps the task list only and any unknown action is ignored. */
  function Reduce(s: State, a: Action): (r: State)
    ensures r.hydrated == (s.hydrated || a.Hydrate?)
    ensures a.Hydrate? ==> r.tasks == a.loadedTasks && r.activity == a.loadedActivity
    ensures !a.Hydrate? ==>
      r.activity == s.activity || (|r.activity| == |s.activity| + 1 && r.activity[1..] == s.activity)
    ensures Logs(a) ==> |r.activity| == |s.activity| + 1 && r.activity[0] == a.entry
    ensures a.AddTaskAction? ==> r.tasks == [a.task] + s.tasks
    ensures a.UpdateTaskAction? ==> r.tasks == ReplaceById(s.tasks, a.task)
    ensures a.DeleteTaskAction? ==> r.tasks == Without(s.tasks, a.id)
    ensures a.ReplaceAll? ==> r.tasks == a.replacement && r.activity == s.activity
    ensures a.Unknown? ==> r == s
  {
    match a
    case Hydrate(tasks, activity) => s.(tasks := tasks, activity := activity, hydrated := true)
    case AddTaskAction(task, entry) => s.(tasks := [task] + s.tasks, activity := [entry] + s.activity)
    case UpdateTaskAction(task, entry) => s.(tasks := ReplaceById(s.tasks, task), activity := [entry] + s.activity)
    case DeleteTaskAction(id, entry) => s.(tasks := Without(s.tasks, id), activity := [entry] + s.activity)
    case ReplaceAll(tasks) => s.(tasks := tasks)
    case Unknown(_) => s
  }

  /** Dispatching a list of actions in order. */
  function ReduceAll(s: State, actions: seq<Action>): State
    decreases |actions|
  {
    if |actions| == 0 then s else ReduceAll(Reduce(s, actions[0]), actions[1..])
  }

  function CountLogs(actions: seq<Action>): nat {
    if |actions| == 0 then 0 else (if Logs(actions[0]) then 1 else 0) + CountLogs(actions[1..])
  }

  /** Once hydrated, the activity log only grows at the front: after any run
      of actions without HYDRATE, the old log is the tail of the new one and
      there is one new entry per add, update or delete dispatched. */
  lemma {:induction false} ActivityOnlyGrows(s: State, actions: seq<Action>)
    requires forall i | 0 <= i < |actions| :: !actions[i].Hydrate?
    ensures |ReduceAll(s, actions).activity| == |s.activity| + CountLogs(actions)
    ensures ReduceAll(s, actions).activity[CountLogs(actions)..] == s.activity
    decreases |actions|
  {
    if |actions| > 0 {
      var s1 := Reduce(s, actions[0]);
      ActivityOnlyGrows(s1, actions[1..]);
      var k := CountLogs(actions[1..]);
      var r := ReduceAll(s1, actions[1..]);
      if Logs(actions[0]) {
        assert r.activity[k + 1..] == r.activity[k..][1..];
      }
    }
  }

  /** `state.tasks.find(t => t.id === id)`: the first task with that id. */
  function Find(tasks: seq<Task>, id: Id): (r: Option<Task>)
    ensures r.None? <==> !HasId(tasks, id)
    ensures r.Some? ==> r.value in tasks && r.value.id == id
    ensures r.Some? ==>
      exists k | 0 <= k < |tasks| :: tasks[k] == r.value && forall j | 0 <= j < k :: tasks[j].id != id
  {
    if |tasks| == 0 then None
    else if tasks[0].id == id then Some(tasks[0])
    else
      assert forall i | 1 <= i < |tasks| :: tasks[i] == tasks[1..][i - 1];
      var r := Find(tasks[1..], id);
      assert r.Some? ==>
        exists k | 0 <= k < |tasks| :: tasks[k] == r.value && forall j | 0 <= j < k :: tasks[j].id != id
      by {
        if r.Some? {
          var k :| 0 <= k < |tasks| - 1 && tasks[1..][k] == r.value
            && forall j | 0 <= j < k :: tasks[1..][j].id != id;
          assert forall j | 0 <= j < k + 1 :: tasks[j].id != id by {
            assert forall j | 1 <= j < k + 1 :: tasks[j] == tasks[1..][j - 1];
          }
          assert tasks[k + 1] == r.value;
        }
      }
      r
  }

  /** The task object `addTask` builds from a draft. Each `||` default also
      replaces an empty string: a blank description and an empty status
      name fall back like absent ones. */
  function NewTask(d: Draft, now: int, id: Id): (t: Task)
    ensures t.id == id && t.createdAt == now && t.updatedAt == now
    ensures t.title == Text.Trim(d.title) && Text.IsTrimmed(t.title)
    ensures d.description.None? ==> t.description == ""
    ensures d.description.Some? ==> t.description == Text.Trim(d.description.value)
    ensures d.priority.None? ==> t.priority == Medium
    ensures d.priority.Some? ==> t.priority == d.priority.value
    ensures t.dueDate == d.dueDate
    ensures d.status.None? || StatusName(d.status.value) == "" ==> t.status == Todo
    ensures d.status.Some? && StatusName(d.status.value) != "" ==> t.status == d.status.value
    ensures d.tags.None? ==> t.tags == []
    ensures d.tags.Some? ==> t.tags == d.tags.value
  {
    Task(
      id,
      Text.Trim(d.title),
      match d.description case None => "" case Some(text) => Text.Trim(text),
      d.priority.GetOr(Medium),
      d.dueDate,
      if d.status.Some? && StatusName(d.status.value) != "" then d.status.value else Todo,
      d.tags.GetOr([]),
      now,
      now)
  }

  /** `addTask`: the new task goes to the front of the list and a `create`
      entry naming it to the front of the log; the id is returned. Blank
      titles are not rejected here (only the detail screen checks them). */
  function AddTask(s: State, d: Draft, now: int, taskId: Id, entryId: Id): (r: (State, Id))
    ensures r.1 == taskId
    ensures |r.0.tasks| == |s.tasks| + 1 && r.0.tasks[1..] == s.tasks
    ensures r.0.tasks[0] == NewTask(d, now, taskId)
    ensures |r.0.activity| == |s.activity| + 1 && r.0.activity[1..] == s.activity
    ensures r.0.activity[0] == ActivityEntry(entryId, Create, taskId, now, Some(Meta(Some(r.0.tasks[0].title), None)))
    ensures r.0.hydrated == s.hydrated
  {
    var task := NewTask(d, now, taskId);
    var entry := ActivityEntry(entryId, Create, task.id, now, Some(Meta(Some(task.title), None)));
    (Reduce(s, AddTaskAction(task, entry)), task.id)
  }

  /** `{ ...prev, ...changes, updatedAt: now }`: every key present in the
      change set wins, every absent key keeps its old value, and `updatedAt`
      is the clock whatever the change set says. */
  function Merge(prev: Task, c: Changes, now: int): (t: Task)
    ensures t.updatedAt == now
    ensures c.id.None? ==> t.id == prev.id
    ensures c.id.Some? ==> t.id == c.id.value
    ensures c.title.None? ==> t.title == prev.title
    ensures c.title.Some? ==> t.title == c.title.value
    ensures c.description.None? ==> t.description == prev.description
    ensures c.description.Some? ==> t.description == c.description.value
    ensures c.priority.None? ==> t.priority == prev.priority
    ensures c.priority.Some? ==> t.priority == c.priority.value
    ensures c.dueDate.None? ==> t.dueDate == prev.dueDate
    ensures c.dueDate.Some? ==> t.dueDate == c.dueDate.value
    ensures c.status.None? ==> t.status == prev.status
    ensures c.status.Some? ==> t.status == c.status.value
    ensures c.tags.None? ==> t.tags == prev.tags
    ensures c.tags.Some? ==> t.tags == c.tags.value
    ensures c.createdAt.None? ==> t.createdAt == prev.createdAt
    ensures c.createdAt.Some? ==> t.createdAt == c.createdAt.value
  {
    Task(
      c.id.GetOr(prev.id),
      c.title.GetOr(prev.title),
      c.description.GetOr(prev.description),
      c.priority.GetOr(prev.priority),
      c.dueDate.GetOr(prev.dueDate),
      c.status.GetOr(prev.status),
      c.tags.GetOr(prev.tags),
      c.createdAt.GetOr(prev.createdAt),
      now)
  }

  /** `updateTask`: nothing at all happens for an unknown id. Otherwise the
      first task with the id is merged with the change set, the reducer puts
      the merged task wherever a task carries the MERGED task's id, and one
      `update` entry with the merged title and the change set goes to the
      front of the log. */
  function UpdateTask(s: State, id: Id, c: Changes, now: int, entryId: Id): (r: State)
    ensures !HasId(s.tasks, id) ==> r == s
    ensures HasId(s.tasks, id) ==>
      && r.tasks == ReplaceById(s.tasks, Merge(Find(s.tasks, id).value, c, now))
      && |r.tasks| == |s.tasks|
      && r.hydrated == s.hydrated
      && |r.activity| == |s.activity| + 1 && r.activity[1..] == s.activity
      && r.activity[0] == ActivityEntry(entryId, Update, id, now,
           Some(Meta(Some(Merge(Find(s.tasks, id).value, c, now).title), Some(c))))
  {
    match Find(s.tasks, id)
    case None => s
    case Some(prev) =>
      var task := Merge(prev, c, now);
      var entry := ActivityEntry(entryId, Update, id, now, Some(Meta(Some(task.title), Some(c))));
      Reduce(s, UpdateTaskAction(task, entry))
  }

  /** When the change set leaves the id alone, exactly the tasks with that id
      are replaced, in place, by the merge of the first of them with the
      changes; every other task is untouched. */
  lemma UpdateReplacesOnlyThatId(s: State, id: Id, c: Changes, now: int, entryId: Id)
    requires HasId(s.tasks, id)
    requires c.id.None? || c.id == Some(id)
    ensures var r := UpdateTask(s, id, c, now, entryId);
      var merged := Merge(Find(s.tasks, id).value, c, now);
      forall i | 0 <= i < |s.tasks| ::
        (s.tasks[i].id == id ==> r.tasks[i] == merged) && (s.tasks[i].id != id ==> r.tasks[i] == s.tasks[i])
  {
  }

  /** The reducer replaces by the MERGED task's id, so a change set that
      carries a new, unused id replaces nothing: the edit is lost while an
      `update` entry is still logged. */
  lemma UpdateUnderNewIdIsLost(s: State, id: Id, c: Changes, now: int, entryId: Id)
    requires HasId(s.tasks, id)
    requires c.id.Some? && !HasId(s.tasks, c.id.value)
    ensures UpdateTask(s, id, c, now, entryId).tasks == s.tasks
    ensures |UpdateTask(s, id, c, now, entryId).activity| == |s.activity| + 1
  {
    var r := UpdateTask(s, id, c, now, entryId);
    assert forall i | 0 <= i < |s.tasks| :: s.tasks[i].id != c.id.value;
    assert forall i | 0 <= i < |s.tasks| :: r.tasks[i] == s.tasks[i];
  }

  /** A change set whose id names ANOTHER stored task overwrites that task
      with the merged copy of the first task with `id`; the task being
      edited keeps its old value, and an `update` entry for `id` is logged. */
  lemma UpdateUnderOtherIdOverwrites(s: State, id: Id, c: Changes, now: int, entryId: Id)
    requires HasId(s.tasks, id)
    requires c.id.Some? && c.id.value != id
    ensures var r := UpdateTask(s, id, c, now, entryId);
      var merged := Merge(Find(s.tasks, id).value, c, now);
      && merged.id == c.id.value
      && (forall i | 0 <= i < |s.tasks| ::
            (s.tasks[i].id == c.id.value ==> r.tasks[i] == merged)
            && (s.tasks[i].id != c.id.value ==> r.tasks[i] == s.tasks[i]))
      && (forall i | 0 <= i < |s.tasks| && s.tasks[i].id == id :: r.tasks[i] == s.tasks[i])
      && r.activity[0].taskId == id
  {
  }

  /** The status a toggle moves to: `Done` goes back to `Todo`, anything else
      becomes `Done`. */
  function NextStatus(st: Status): (r: Status)
    ensures IsDone(r) != IsDone(st)
    ensures IsDone(st) ==> StatusName(r) == "Todo"
  {
    if IsDone(st) then Todo else Done
  }

  /** `toggleComplete`: nothing happens for an unknown id. Otherwise every
      task with that id becomes the FIRST such task with its status flipped
      and `updatedAt` moved to the clock, every other task stays, and a
      `complete` or `reopen` entry goes to the front of the log. */
  function ToggleComplete(s: State, id: Id, now: int, entryId: Id): (r: State)
    ensures !HasId(s.tasks, id) ==> r == s
    ensures HasId(s.tasks, id) ==>
      var t := Find(s.tasks, id).value;
      && |r.tasks| == |s.tasks|
      && r.hydrated == s.hydrated
      && (forall i | 0 <= i < |s.tasks| && s.tasks[i].id != id :: r.tasks[i] == s.tasks[i])
      && (forall i | 0 <= i < |s.tasks| && s.tasks[i].id == id ::
            r.tasks[i] == t.(status := r.tasks[i].status, updatedAt := now)
            && (IsDone(t.status) ==> r.tasks[i].status == Todo)
            && (!IsDone(t.status) ==> r.tasks[i].status == Done))
      && |r.activity| == |s.activity| + 1 && r.activity[1..] == s.activity
      && r.activity[0] == ActivityEntry(entryId, if IsDone(t.status) then Reopen else Complete, id, now,
           Some(Meta(Some(t.title), None)))
  {
    match Find(s.tasks, id)
    case None => s
    case Some(t) =>
      var next := NextStatus(t.status);
      var task := t.(status := next, updatedAt := now);
      var entry := ActivityEntry(entryId, if next == Done then Complete else Reopen, id, now,
                                 Some(Meta(Some(task.title), None)));
      Reduce(s, UpdateTaskAction(task, entry))
  }

  /** After every task with `id` has been replaced by `x`, which has that id,
      `x` is what a lookup finds. */
  lemma {:induction false} FindAfterReplace(tasks: seq<Task>, x: Task)
    requires HasId(tasks, x.id)
    ensures Find(ReplaceById(tasks, x), x.id) == Some(x)
  {
    var r := ReplaceById(tasks, x);
    if tasks[0].id != x.id {
      assert ReplaceById(tasks[1..], x) == r[1..];
      assert HasId(tasks[1..], x.id) by {
        var i :| 0 <= i < |tasks| && tasks[i].id == x.id;
        assert tasks[1..][i - 1].id == x.id;
      }
      FindAfterReplace(tasks[1..], x);
    }
  }

  /** Toggling a Todo or Done task twice gives it its status back; only its
      `updatedAt` has moved, and the log has gained a `complete`/`reopen` pair
      in the order the toggles happened. */
  lemma ToggleTwiceRestoresStatus(s: State, id: Id, now1: int, e1: Id, now2: int, e2: Id)
    requires HasId(s.tasks, id)
    requires Find(s.tasks, id).value.status == Todo || Find(s.tasks, id).value.status == Done
    ensures var t := Find(s.tasks, id).value;
      var r := ToggleComplete(ToggleComplete(s, id, now1, e1), id, now2, e2);
      && |r.tasks| == |s.tasks|
      && (forall i | 0 <= i < |s.tasks| ::
            (s.tasks[i].id == id ==> r.tasks[i] == t.(updatedAt := now2))
            && (s.tasks[i].id != id ==> r.tasks[i] == s.tasks[i]))
      && |r.activity| == |s.activity| + 2 && r.activity[2..] == s.activity
      && (t.status == Todo ==> r.activity[1].kind == Complete && r.activity[0].kind == Reopen)
      && (t.status == Done ==> r.activity[1].kind == Reopen && r.activity[0].kind == Complete)
  {
    var t := Find(s.tasks, id).value;
    var t1 := t.(status := NextStatus(t.status), updatedAt := now1);
    var s1 := ToggleComplete(s, id, now1, e1);
    assert s1.tasks == ReplaceById(s.tasks, t1);
    FindAfterReplace(s.tasks, t1);
    var r := ToggleComplete(s1, id, now2, e2);
    assert r.activity[2..] == s1.activity[1..];
  }

  /** `deleteTask`: every task with that id leaves the list and the others
      stay; one `delete` entry always goes to the front of the log, with the
      title of the first such task, or '' when there was none. */
  function DeleteTask(s: State, id: Id, now: int, entryId: Id): (r: State)
    ensures forall t :: t in r.tasks <==> t in s.tasks && t.id != id
    ensures !HasId(s.tasks, id) ==> r.tasks == s.tasks
    ensures r.hydrated == s.hydrated
    ensures |r.activity| == |s.activity| + 1 && r.activity[1..] == s.activity
    ensures r.activity[0] == ActivityEntry(entryId, Delete, id, now,
      Some(Meta(Some(if HasId(s.tasks, id) then Find(s.tasks, id).value.title else ""), None)))
  {
    var title := match Find(s.tasks, id) case None => "" case Some(t) => t.title;
    var entry := ActivityEntry(entryId, Delete, id, now, Some(Meta(Some(title), None)));
    WithoutAbsent(s.tasks, id);
    Reduce(s, DeleteTaskAction(id, entry))
  }

  /** Removing an id that is not there changes nothing. */
  lemma {:induction false} WithoutAbsent(tasks: seq<Task>, id: Id)
    ensures !HasId(tasks, id) ==> Without(tasks, id) == tasks
  {
    if |tasks| > 0 && !HasId(tasks, id) {
      assert !HasId(tasks[1..], id);
      WithoutAbsent(tasks[1..], id);
      assert [tasks[0]] + tasks[1..] == tasks;
    }
  }

  /** Removal works piece by piece, so the surviving tasks keep their
      relative order. */
  lemma {:induction false} WithoutAppend(a: seq<Task>, b: seq<Task>, id: Id)
    ensures Without(a + b, id) == Without(a, id) + Without(b, id)
  {
    if |a| > 0 {
      assert (a + b)[1..] == a[1..] + b;
      WithoutAppend(a[1..], b, id);
    } else {
      assert a + b == b;
    }
  }

  /** Adding a task under a fresh id and then deleting that id gives the task
      list back; the log keeps both entries, `delete` in front of `create`. */
  lemma AddThenDeleteRestoresTasks(s: State, d: Draft, now1: int, taskId: Id, e1: Id, now2: int, e2: Id)
    requires !HasId(s.tasks, taskId)
    ensures var r := DeleteTask(AddTask(s, d, now1, taskId, e1).0, taskId, now2, e2);
      && r.tasks == s.tasks
      && r.activity[2..] == s.activity
      && r.activity[1].kind == Create && r.activity[0].kind == Delete
      && r.activity[0].meta == Some(Meta(Some(Text.Trim(d.title)), None))
  {
    var t := NewTask(d, now1, taskId);
    var s1 := AddTask(s, d, now1, taskId, e1).0;
    AddTaskList(s, d, now1, taskId, e1);
    DeleteTaskList(s1, taskId, now2, e2);
    WithoutFreshHead(t, s.tasks);
    var r := DeleteTask(s1, taskId, now2, e2);
    assert r.activity[2..] == s1.activity[1..];
  }

  lemma AddTaskList(s: State, d: Draft, now: int, taskId: Id, entryId: Id)
    ensures AddTask(s, d, now, taskId, entryId).0.tasks == [NewTask(d, now, taskId)] + s.tasks
  {
  }

  lemma DeleteTaskList(s: State, id: Id, now: int, entryId: Id)
    ensures DeleteTask(s, id, now, entryId).tasks == Without(s.tasks, id)
  {
  }

  /** Removing the id of a head whose id occurs nowhere else leaves the tail. */
  lemma WithoutFreshHead(t: Task, rest: seq<Task>)
    requires !HasId(rest, t.id)
    ensures Without([t] + rest, t.id) == rest
    ensures Find([t] + rest, t.id) == Some(t)
  {
    WithoutAbsent(rest, t.id);
    assert ([t] + rest)[1..] == rest;
  }

  /** `reloadFromStorage`: the tasks read back from storage (`loaded`)
      replace the list; the activity log and the hydration flag stay as they
      were, and nothing is logged. */
  function ReloadFromStorage(s: State, loaded: seq<Task>): (r: State)
    ensures r.tasks == loaded
    ensures r.activity == s.activity && r.hydrated == s.hydrated
  {
    Reduce(s, ReplaceAll(loaded))
  }

  // ---------------------------------------------------------------------
  // Runs of user operations, as the screens invoke them.

  datatype Command =
    | AddCmd(draft: Draft, newId: Id)
    | UpdateCmd(target: Id, changes: Changes)
    | ToggleCmd(target: Id)
    | DeleteCmd(target: Id)

  /** One call of an action creator with the clock reading and the uuid it
      draws for the activity entry. */
  datatype Op = Op(cmd: Command, now: int, entryId: Id)

  /** The operation changes the store: every add and delete does, an update
      or toggle only when its id is present. */
  predicate Effective(s: State, op: Op) {
    match op.cmd
    case UpdateCmd(id, _) => HasId(s.tasks, id)
    case ToggleCmd(id) => HasId(s.tasks, id)
    case _ => true
  }

  /** An effective operation logs exactly one entry in front of the old log;
      any other leaves the whole state as it was. */
  function Apply(s: State, op: Op): (r: State)
    ensures Effective(s, op) ==> |r.activity| == |s.activity| + 1 && r.activity[1..] == s.activity
    ensures !Effective(s, op) ==> r == s
    ensures r.hydrated == s.hydrated
  {
    match op.cmd
    case AddCmd(d, newId) => AddTask(s, d, op.now, newId, op.entryId).0
    case UpdateCmd(id, c) => UpdateTask(s, id, c, op.now, op.entryId)
    case ToggleCmd(id) => ToggleComplete(s, id, op.now, op.entryId)
    case DeleteCmd(id) => DeleteTask(s, id, op.now, op.entryId)
  }

  function Run(s: State, ops: seq<Op>): State
    decreases |ops|
  {
    if |ops| == 0 then s else Run(Apply(s, ops[0]), ops[1..])
  }

  function EffectiveCount(s: State, ops: seq<Op>): nat
    decreases |ops|
  {
    if |ops| == 0 then 0
    else (if Effective(s, ops[0]) then 1 else 0) + EffectiveCount(Apply(s, ops[0]), ops[1..])
  }

  /** The log grows by exactly one entry per effective operation, newest
      first, and the entries that were there stay, unchanged, at the back. */
  lemma {:induction false} RunLogsEachEffectiveOp(s: State, ops: seq<Op>)
    ensures |Run(s, ops).activity| == |s.activity| + EffectiveCount(s, ops)
    ensures Run(s, ops).activity[EffectiveCount(s, ops)..] == s.activity
    decreases |ops|
  {
    if |ops| > 0 {
      var s1 := Apply(s, ops[0]);
      RunLogsEachEffectiveOp(s1, ops[1..]);
      var k := EffectiveCount(s1, ops[1..]);
      var r := Run(s1, ops[1..]);
      if Effective(s, ops[0]) {
        assert r.activity[k + 1..] == r.activity[k..][1..];
      }
    }
  }

  predicate UniqueIds(tasks: seq<Task>) {
    forall i, j | 0 <= i < j < |tasks| :: tasks[i].id != tasks[j].id
  }

  predicate Stamped(tasks: seq<Task>) {
    forall i | 0 <= i < |tasks| :: tasks[i].createdAt <= tasks[i].updatedAt
  }

  /** One task per id, and no task updated before it was created. */
  predicate WellFormed(s: State) {
    UniqueIds(s.tasks) && Stamped(s.tasks)
  }

  /** What a caller owes an operation for it to keep the store well formed:
      a clock no earlier than any task's last update, a fresh uuid for a new
      task, and a change set that leaves `id` and `createdAt` alone. */
  predicate Admissible(s: State, op: Op) {
    && (forall i | 0 <= i < |s.tasks| :: s.tasks[i].updatedAt <= op.now)
    && match op.cmd
       case AddCmd(_, newId) => !HasId(s.tasks, newId)
       case UpdateCmd(_, c) => c.id.None? && c.createdAt.None?
       case _ => true
  }

  lemma {:induction false} WithoutKeepsUnique(tasks: seq<Task>, id: Id)
    requires UniqueIds(tasks)
    ensures UniqueIds(Without(tasks, id))
  {
    if |tasks| > 0 {
      WithoutKeepsUnique(tasks[1..], id);
      var rest := Without(tasks[1..], id);
      forall j | 0 <= j < |rest|
        ensures rest[j].id != tasks[0].id
      {
        assert rest[j] in tasks[1..];
      }
    }
  }

  lemma {:induction false} WithoutKeepsStamped(tasks: seq<Task>, id: Id)
    requires Stamped(tasks)
    ensures Stamped(Without(tasks, id))
  {
    var r := Without(tasks, id);
    forall i | 0 <= i < |r|
      ensures r[i].createdAt <= r[i].updatedAt
    {
      assert r[i] in tasks;
    }
  }

  /** Every admissible operation keeps the store well formed. */
  lemma ApplyPreservesWellFormed(s: State, op: Op)
    requires WellFormed(s)
    requires Admissible(s, op)
    ensures WellFormed(Apply(s, op))
  {
    match op.cmd
    case AddCmd(d, newId) =>
      AddKeepsWellFormed(s, d, op.now, newId, op.entryId);
    case UpdateCmd(id, c) =>
      if HasId(s.tasks, id) {
        UpdateKeepsWellFormed(s, id, c, op.now, op.entryId);
      }
    case ToggleCmd(id) =>
      if HasId(s.tasks, id) {
        ToggleKeepsWellFormed(s, id, op.now, op.entryId);
      }
    case DeleteCmd(id) =>
      WithoutKeepsUnique(s.tasks, id);
      WithoutKeepsStamped(s.tasks, id);
  }

  lemma AddKeepsWellFormed(s: State, d: Draft, now: int, newId: Id, entryId: Id)
    requires WellFormed(s) && !HasId(s.tasks, newId)
    ensures WellFormed(AddTask(s, d, now, newId, entryId).0)
  {
    var t := NewTask(d, now, newId);
    AddTaskList(s, d, now, newId, entryId);
    FreshHeadKeepsWellFormed(t, s.tasks);
  }

  lemma FreshHeadKeepsWellFormed(t: Task, tasks: seq<Task>)
    requires UniqueIds(tasks) && Stamped(tasks)
    requires !HasId(tasks, t.id) && t.createdAt <= t.updatedAt
    ensures UniqueIds([t] + tasks) && Stamped([t] + tasks)
  {
    var r := [t] + tasks;
    assert forall i | 1 <= i < |r| :: r[i] == tasks[i - 1];
  }

  lemma UpdateKeepsWellFormed(s: State, id: Id, c: Changes, now: int, entryId: Id)
    requires WellFormed(s) && HasId(s.tasks, id)
    requires c.id.None? && c.createdAt.None?
    requires forall i | 0 <= i < |s.tasks| :: s.tasks[i].updatedAt <= now
    ensures WellFormed(UpdateTask(s, id, c, now, entryId))
  {
    var prev := Find(s.tasks, id).value;
    var merged := Merge(prev, c, now);
    assert prev in s.tasks;
    UpdateReplacesOnlyThatId(s, id, c, now, entryId);
    var r := UpdateTask(s, id, c, now, entryId);
    assert forall i | 0 <= i < |s.tasks| :: r.tasks[i].id == s.tasks[i].id;
  }

  lemma ToggleKeepsWellFormed(s: State, id: Id, now: int, entryId: Id)
    requires WellFormed(s) && HasId(s.tasks, id)
    requires forall i | 0 <= i < |s.tasks| :: s.tasks[i].updatedAt <= now
    ensures WellFormed(ToggleComplete(s, id, now, entryId))
  {
    var t := Find(s.tasks, id).value;
    assert t in s.tasks;
    var r := ToggleComplete(s, id, now, entryId);
    assert forall i | 0 <= i < |s.tasks| :: r.tasks[i].id == s.tasks[i].id;
  }

  /** Every operation of the run is admissible in the state it meets. */
  predicate AdmissibleRun(s: State, ops: seq<Op>)
    decreases |ops|
  {
    |ops| == 0 || (Admissible(s, ops[0]) && AdmissibleRun(Apply(s, ops[0]), ops[1..]))
  }

  /** A run of admissible operations keeps the store well formed. */
  lemma {:induction false} RunPreservesWellFormed(s: State, ops: seq<Op>)
    requires WellFormed(s)
    requires AdmissibleRun(s, ops)
    ensures WellFormed(Run(s, ops))
    decreases |ops|
  {
    if |ops| > 0 {
      ApplyPreservesWellFormed(s, ops[0]);
      RunPreservesWellFormed(Apply(s, ops[0]), ops[1..]);
    }
  }

  /** Starting from `initialState`, any admissible run of operations leaves
      one task per id and no task updated before it was created. */
  lemma InitialRunsStayWellFormed(ops: seq<Op>)
    requires AdmissibleRun(Initial, ops)
    ensures WellFormed(Run(Initial, ops))
  {
    RunPreservesWellFormed(Initial, ops);
  }
}

=== FILE: taskdetail.dfy ===
/** The logic of `src/screens/TaskDetailScreen.js`: the initial form, tag
    parsing, the `onSave` validation and payload, and the toggle and delete
    buttons, each as its effect on the store. */
module TaskDetail {
  import opened Wrappers
  import opened Dates
  import opened Tasks
  import Store
  import Text

  /** The screen's form state. */
  datatype Form = Form(title: string, description: string, priority: Priority, dueDate: Option<Moment>, tagsInput: string)

  /** The separator the form shows tags with. */
  const TagSeparator: string := ", "

  /** `tasks.find(t => t.id === id)` for the route's `id` parameter. */
  function Existing(s: Store.State, routeId: Option<Id>): Option<Task> {
    match routeId
    case None => None
    case Some(id) => Store.Find(s.tasks, id)
  }

  /** The form starts from the task being edited, or blank: empty title and
      description, priority Medium, no due date, no tags. */
  function InitialForm(existing: Option<Task>): (f: Form)
    ensures existing.None? ==> f == Form("", "", Medium, None, "")
    ensures existing.Some? ==>
      && f.title == existing.value.title
      && f.description == existing.value.description
      && f.priority == existing.value.priority
      && f.dueDate == existing.value.dueDate
      && f.tagsInput == Text.Join(existing.value.tags, TagSeparator)
  {
    match existing
    case None => Form("", "", Medium, None, "")
    case Some(t) => Form(t.title, t.description, t.priority, t.dueDate, Text.Join(t.tags, TagSeparator))
  }

  /** A tag as the parser leaves it: non-empty, trimmed, without a comma. */
  predicate CleanTag(tag: string) {
    tag != "" && Text.IsTrimmed(tag) && ',' !in tag
  }

  predicate AllClean(tags: seq<string>) {
    forall i | 0 <= i < |tags| :: CleanTag(tags[i])
  }

  lemma AllCleanAppend(a: seq<string>, b: seq<string>)
    requires AllClean(a) && AllClean(b)
    ensures AllClean(a + b)
  {
    forall i | 0 <= i < |a + b|
      ensures CleanTag((a + b)[i])
    {
      if i < |a| {
        assert (a + b)[i] == a[i];
      } else {
        assert (a + b)[i] == b[i - |a|];
      }
    }
  }

  predicate CommaFree(pieces: seq<string>) {
    forall i | 0 <= i < |pieces| :: ',' !in pieces[i]
  }

  /** The tag one piece contributes: none when it is all white space,
      otherwise the piece trimmed. */
  function CleanPiece(piece: string): (r: seq<string>)
    requires ',' !in piece
    ensures |r| <= 1
    ensures AllClean(r)
    ensures r == [] <==> Text.AllSpace(piece)
    ensures |r| == 1 ==> r[0] == Text.Trim(piece)
  {
    var tag := Text.Trim(piece);
    Text.TrimAddsNothing(piece, ',');
    if tag == "" then [] else [tag]
  }

  /** `.map(t => t.trim()).filter(Boolean)` over comma-free pieces: no tag at
      all exactly when every piece is blank (`CleanPiecesYield` says which
      tags there are). */
  function CleanPieces(pieces: seq<string>): (r: seq<string>)
    requires CommaFree(pieces)
    ensures |r| <= |pieces|
    ensures AllClean(r)
    ensures r == [] <==> AllBlank(pieces)
  {
    if |pieces| == 0 then []
    else
      assert CommaFree(pieces[1..]) by {
        assert forall i | 0 <= i < |pieces| - 1 :: pieces[1..][i] == pieces[i + 1];
      }
      var first := CleanPiece(pieces[0]);
      var rest := CleanPieces(pieces[1..]);
      AllCleanAppend(first, rest);
      assert AllBlank(pieces) <==> Text.AllSpace(pieces[0]) && AllBlank(pieces[1..]) by {
        assert forall i | 1 <= i < |pieces| :: pieces[i] == pieces[1..][i - 1];
      }
      first + rest
  }

  /** What the cleaned pieces hold: the trim of every non-blank piece, and
      nothing else. */
  lemma {:induction false} CleanPiecesYield(pieces: seq<string>)
    requires CommaFree(pieces)
    ensures TagsOfPieces(pieces, CleanPieces(pieces))
  {
    if |pieces| > 0 {
      var first := CleanPiece(pieces[0]);
      var rest := CleanPieces(pieces[1..]);
      CleanPiecesYield(pieces[1..]);
      CleanPiecesCons(pieces[0], pieces[1..]);
      assert [pieces[0]] + pieces[1..] == pieces;
      TagsOfPiecesCons(pieces, first, rest);
    }
  }

  /** `tags` is what the pieces yield once trimmed and blanks dropped: it is
      empty exactly when every piece is blank, every non-blank piece's trim is
      among the tags, and every tag is the trim of a non-blank piece. */
  predicate TagsOfPieces(pieces: seq<string>, tags: seq<string>) {
    && (tags == [] <==> AllBlank(pieces))
    && NonBlankKept(pieces, tags)
    && EachFromPiece(pieces, tags)
  }

  predicate AllBlank(pieces: seq<string>) {
    forall i | 0 <= i < |pieces| :: Text.AllSpace(pieces[i])
  }

  predicate NonBlankKept(pieces: seq<string>, tags: seq<string>) {
    forall i | 0 <= i < |pieces| && !Text.AllSpace(pieces[i]) :: Text.Trim(pieces[i]) in tags
  }

  predicate FromPiece(pieces: seq<string>, tag: string) {
    exists i | 0 <= i < |pieces| :: !Text.AllSpace(pieces[i]) && tag == Text.Trim(pieces[i])
  }

  predicate EachFromPiece(pieces: seq<string>, tags: seq<string>) {
    forall k | 0 <= k < |tags| :: FromPiece(pieces, tags[k])
  }

  /** The first piece's tag in front of the rest's tags is what all the
      pieces yield. */
  lemma TagsOfPiecesCons(pieces: seq<string>, first: seq<string>, rest: seq<string>)
    requires |pieces| > 0
    requires |first| <= 1 && (first == [] <==> Text.AllSpace(pieces[0]))
    requires |first| == 1 ==> first[0] == Text.Trim(pieces[0])
    requires TagsOfPieces(pieces[1..], rest)
    ensures TagsOfPieces(pieces, first + rest)
  {
    var tail := pieces[1..];
    assert forall i | 1 <= i < |pieces| :: pieces[i] == tail[i - 1];
    NonBlankKeptCons(pieces, first, rest);
    EachFromPieceCons(pieces, first, rest);
  }

  lemma NonBlankKeptCons(pieces: seq<string>, first: seq<string>, rest: seq<string>)
    requires |pieces| > 0
    requires |first| <= 1 && (first == [] <==> Text.AllSpace(pieces[0]))
    requires |first| == 1 ==> first[0] == Text.Trim(pieces[0])
    requires NonBlankKept(pieces[1..], rest)
    ensures NonBlankKept(pieces, first + rest)
  {
    var tags := first + rest;
    var tail := pieces[1..];
    forall i | 0 <= i < |pieces| && !Text.AllSpace(pieces[i])
      ensures Text.Trim(pieces[i]) in tags
    {
      var t := Text.Trim(pieces[i]);
      if i > 0 {
        assert pieces[i] == tail[i - 1];
        assert t in rest;
        var k :| 0 <= k < |rest| && rest[k] == t;
        assert tags[|first| + k] == t;
      } else {
        assert tags[0] == t;
      }
    }
  }

  lemma EachFromPieceCons(pieces: seq<string>, first: seq<string>, rest: seq<string>)
    requires |pieces| > 0
    requires |first| <= 1 && (first == [] <==> Text.AllSpace(pieces[0]))
    requires |first| == 1 ==> first[0] == Text.Trim(pieces[0])
    requires EachFromPiece(pieces[1..], rest)
    ensures EachFromPiece(pieces, first + rest)
  {
    if |first| == 1 {
      FromPieceOfHead(pieces);
      EachFromPieceSingle(pieces, first);
    }
    EachFromPieceWiden(pieces, rest);
    EachFromPieceAppend(pieces, first, rest);
  }

  lemma EachFromPieceSingle(pieces: seq<string>, first: seq<string>)
    requires |first| == 1 && FromPiece(pieces, first[0])
    ensures EachFromPiece(pieces, first)
  {
    forall k | 0 <= k < |first|
      ensures FromPiece(pieces, first[k])
    {
      assert k == 0;
    }
  }

  lemma EachFromPieceAppend(pieces: seq<string>, a: seq<string>, b: seq<string>)
    requires EachFromPiece(pieces, a) && EachFromPiece(pieces, b)
    ensures EachFromPiece(pieces, a + b)
  {
    forall k | 0 <= k < |a + b|
      ensures FromPiece(pieces, (a + b)[k])
    {
      if k < |a| {
        assert (a + b)[k] == a[k];
      } else {
        assert (a + b)[k] == b[k - |a|];
      }
    }
  }

  lemma EachFromPieceWiden(pieces: seq<string>, rest: seq<string>)
    requires |pieces| > 0 && EachFromPiece(pieces[1..], rest)
    ensures EachFromPiece(pieces, rest)
  {
    forall k | 0 <= k < |rest|
      ensures FromPiece(pieces, rest[k])
    {
      FromPieceOfTail(pieces, rest[k]);
    }
  }

  /** The first piece, when not blank, yields its trim. */
  lemma FromPieceOfHead(pieces: seq<string>)
    requires |pieces| > 0 && !Text.AllSpace(pieces[0])
    ensures FromPiece(pieces, Text.Trim(pieces[0]))
  {
  }

  /** A tag some later piece yields is yielded by the pieces. */
  lemma FromPieceOfTail(pieces: seq<string>, tag: string)
    requires |pieces| > 0 && FromPiece(pieces[1..], tag)
    ensures FromPiece(pieces, tag)
  {
    var tail := pieces[1..];
    var i :| 0 <= i < |tail| && !Text.AllSpace(tail[i]) && tag == Text.Trim(tail[i]);
    assert pieces[i + 1] == tail[i];
  }

  /** `tagsInput.split(',').map(t => t.trim()).filter(Boolean)`: every tag it
      yields is non-empty, trimmed and comma-free. */
  function ParseTags(input: string): (r: seq<string>)
    ensures AllClean(r)
  {
    CleanPieces(Text.Split(input, ','))
  }

  lemma {:induction false} CleanPiecesAppend(a: seq<string>, b: seq<string>)
    requires CommaFree(a) && CommaFree(b)
    ensures CleanPieces(a + b) == CleanPieces(a) + CleanPieces(b)
  {
    if |a| > 0 {
      assert (a + b)[1..] == a[1..] + b;
      CleanPiecesAppend(a[1..], b);
    } else {
      assert a + b == b;
    }
  }

  /** A leading space, as the separator ", " leaves on every piece after the
      first, is trimmed away. */
  lemma ParseTagsIgnoresLeadingSpace(x: string)
    ensures ParseTags(" " + x) == ParseTags(x)
  {
    var p := Text.Split(x, ',');
    ParseTagsFirstPiece(x);
    ParseTagsSpacedFirstPiece(x);
    CleanPieceIgnoresLeadingSpace(p[0]);
  }

  /** The parse of `x` is its first piece's tag followed by the rest's. */
  lemma ParseTagsFirstPiece(x: string)
    ensures var p := Text.Split(x, ',');
      ParseTags(x) == CleanPiece(p[0]) + CleanPieces(p[1..])
  {
    var p := Text.Split(x, ',');
    assert [p[0]] + p[1..] == p;
    CleanPiecesCons(p[0], p[1..]);
  }

  /** A leading space joins the first piece of `x`. */
  lemma ParseTagsSpacedFirstPiece(x: string)
    ensures var p := Text.Split(x, ',');
      && ',' !in " " + p[0]
      && ParseTags(" " + x) == CleanPiece(" " + p[0]) + CleanPieces(p[1..])
  {
    var p := Text.Split(x, ',');
    var head := " " + p[0];
    Text.SplitLeadingChar(' ', x, ',');
    CleanPieceIgnoresLeadingSpace(p[0]);
    CleanPiecesCons(head, p[1..]);
  }

  lemma CleanPiecesCons(piece: string, rest: seq<string>)
    requires ',' !in piece && CommaFree(rest)
    ensures CommaFree([piece] + rest)
    ensures CleanPieces([piece] + rest) == CleanPiece(piece) + CleanPieces(rest)
  {
    assert ([piece] + rest)[1..] == rest;
  }

  lemma CleanPieceIgnoresLeadingSpace(piece: string)
    requires ',' !in piece
    ensures ',' !in " " + piece
    ensures CleanPiece(" " + piece) == CleanPiece(piece)
  {
    Text.TrimDropsLeadingSpace(' ', piece);
  }

  /** Showing clean tags joined by ", " and parsing the text again gives the
      same tags back. */
  lemma {:induction false} TagsRoundTrip(tags: seq<string>)
    requires AllClean(tags)
    ensures ParseTags(Text.Join(tags, TagSeparator)) == tags
  {
    if |tags| == 1 {
      CleanTagParses(tags[0]);
      Text.SplitWithoutSeparator(tags[0], ',');
    } else if |tags| > 1 {
      var first, later := tags[0], tags[1..];
      var rest := Text.Join(later, TagSeparator);
      assert AllClean(later) by {
        assert forall i | 0 <= i < |later| :: later[i] == tags[i + 1];
      }
      var after := " " + rest;
      var joined := first + [','] + after;
      assert Text.Join(tags, TagSeparator) == joined;
      calc {
        ParseTags(Text.Join(tags, TagSeparator));
        ParseTags(joined);
        { ParseAfterCleanTag(first, after); }
        [first] + ParseTags(after);
        { ParseTagsIgnoresLeadingSpace(rest); }
        [first] + ParseTags(rest);
        { TagsRoundTrip(later); }
        [first] + later;
        tags;
      }
    }
  }

  /** A clean tag before a comma parses to itself, followed by the parse of
      the text after the comma. */
  lemma ParseAfterCleanTag(first: string, after: string)
    requires CleanTag(first)
    ensures ParseTags(first + [','] + after) == [first] + ParseTags(after)
  {
    Text.SplitAfterPiece(first, ',', after);
    CleanTagParses(first);
    CleanPiecesCons(first, Text.Split(after, ','));
  }

  /** A clean tag is its own one-tag parse. */
  lemma CleanTagParses(tag: string)
    requires CleanTag(tag)
    ensures CleanPiece(tag) == [tag]
  {
    Text.TrimOfTrimmed(tag);
  }

  /** Parsing is a normal form: re-parsing the shown form of parsed tags
      changes nothing. */
  lemma ParseTagsIdempotent(input: string)
    ensures ParseTags(Text.Join(ParseTags(input), TagSeparator)) == ParseTags(input)
  {
    TagsRoundTrip(ParseTags(input));
  }

  /** The object `onSave` hands to the store: no id, no timestamps, no
      status. */
  datatype Payload = Payload(title: string, description: string, priority: Priority, dueDate: Option<Moment>, tags: seq<string>)

  function PayloadOf(f: Form): Payload {
    Payload(f.title, f.description, f.priority, f.dueDate, ParseTags(f.tagsInput))
  }

  /** The payload as the draft `addTask` receives. */
  function AsDraft(p: Payload): Draft {
    Draft(p.title, Some(p.description), Some(p.priority), p.dueDate, None, Some(p.tags))
  }

  /** The payload as the change set `updateTask` spreads; `dueDate` is always
      present, as `null` when no date was chosen. */
  function AsChanges(p: Payload): Changes {
    Changes(None, Some(p.title), Some(p.description), Some(p.priority), Some(p.dueDate), None, Some(p.tags), None, None)
  }

  datatype SaveOutcome =
    | TitleRequired
    | UpdateCall(target: Id, changes: Changes)
    | AddCall(draft: Draft)

  /** `onSave`: a blank title stops everything; otherwise an existing task is
      updated under its own id and a new one is added. The payload carries
      the form's title and description as typed, its priority, its due date
      (null exactly when none was chosen) and the parsed, clean tags, and
      never an id, timestamps or a status. */
  function OnSave(f: Form, existing: Option<Task>): (r: SaveOutcome)
    ensures r.TitleRequired? <==> Text.AllSpace(f.title)
    ensures r.UpdateCall? <==> !Text.AllSpace(f.title) && existing.Some?
    ensures r.AddCall? <==> !Text.AllSpace(f.title) && existing.None?
    ensures r.UpdateCall? ==>
      && r.target == existing.value.id
      && r.changes.id.None? && r.changes.createdAt.None? && r.changes.updatedAt.None? && r.changes.status.None?
      && r.changes.title == Some(f.title)
      && r.changes.description == Some(f.description)
      && r.changes.priority == Some(f.priority)
      && r.changes.dueDate == Some(f.dueDate)
      && r.changes.tags == Some(ParseTags(f.tagsInput)) && AllClean(r.changes.tags.value)
      && (r.changes.dueDate == Some(None) <==> f.dueDate.None?)
    ensures r.AddCall? ==>
      && r.draft.status.None? && r.draft.title == f.title
      && r.draft.description == Some(f.description)
      && r.draft.priority == Some(f.priority)
      && r.draft.dueDate == f.dueDate
      && r.draft.tags == Some(ParseTags(f.tagsInput)) && AllClean(r.draft.tags.value)
      && (r.draft.dueDate.None? <==> f.dueDate.None?)
  {
    if Text.Trim(f.title) == "" then TitleRequired
    else
      var payload := PayloadOf(f);
      match existing
      case Some(t) => UpdateCall(t.id, AsChanges(payload))
      case None => AddCall(AsDraft(payload))
  }

  /** What saving does to the store, given the clock and the two uuids an add
      would draw. */
  function Save(s: Store.State, f: Form, existing: Option<Task>, now: int, taskId: Id, entryId: Id): Store.State {
    match OnSave(f, existing)
    case TitleRequired => s
    case UpdateCall(id, c) => Store.UpdateTask(s, id, c, now, entryId)
    case AddCall(d) => Store.AddTask(s, d, now, taskId, entryId).0
  }

  /** A blank title reaches neither `addTask` nor `updateTask`: the store is
      untouched. */
  lemma BlankTitleChangesNothing(s: Store.State, f: Form, existing: Option<Task>, now: int, taskId: Id, entryId: Id)
    requires Text.AllSpace(f.title)
    ensures Save(s, f, existing, now, taskId, entryId) == s
  {
  }

  /** Saving an edit of a stored task rewrites, in place, the tasks with its
      id and nothing else: each becomes the FIRST task with that id (its id,
      `createdAt` and status) with the form's values, and the title is stored
      as typed: `updateTask`, unlike `addTask`, does not trim it. */
  lemma SaveEditKeepsIdentity(s: Store.State, f: Form, id: Id, now: int, taskId: Id, entryId: Id)
    requires Store.Find(s.tasks, id).Some?
    requires !Text.AllSpace(f.title)
    ensures var prev := Store.Find(s.tasks, id).value;
      var r := Save(s, f, Existing(s, Some(id)), now, taskId, entryId);
      && |r.tasks| == |s.tasks|
      && |r.activity| == |s.activity| + 1
      && forall i | 0 <= i < |s.tasks| ::
        (s.tasks[i].id != id ==> r.tasks[i] == s.tasks[i])
        && (s.tasks[i].id == id ==>
              r.tasks[i] == prev.(title := f.title, description := f.description, priority := f.priority,
                                  dueDate := f.dueDate, tags := ParseTags(f.tagsInput), updatedAt := now))
  {
    var prev := Store.Find(s.tasks, id).value;
    assert prev.id == id;
    var c := AsChanges(PayloadOf(f));
    Store.UpdateReplacesOnlyThatId(s, id, c, now, entryId);
  }

  /** Saving a new task adds it with the trimmed title and description, the
      priority, due date and tags from the form, and status Todo. */
  lemma SaveNewTask(s: Store.State, f: Form, now: int, taskId: Id, entryId: Id)
    requires !Text.AllSpace(f.title)
    ensures var r := Save(s, f, None, now, taskId, entryId);
      && r.tasks[1..] == s.tasks
      && r.tasks[0].id == taskId
      && r.tasks[0].title == Text.Trim(f.title)
      && r.tasks[0].description == Text.Trim(f.description)
      && r.tasks[0].status == Todo
      && r.tasks[0].priority == f.priority
      && r.tasks[0].dueDate == f.dueDate
      && r.tasks[0].tags == ParseTags(f.tagsInput)
  {
  }

  /** `onToggleComplete`: without a task on screen nothing happens, nor when
      its id is no longer stored. Otherwise every stored copy of the id
      becomes the first such task with its status flipped (done to `Todo`,
      anything else to `Done`) and `updatedAt` moved to the clock, every
      other task stays, and one entry with that task's title is logged:
      `reopen` when it was done, `complete` otherwise. */
  function OnToggleComplete(s: Store.State, existing: Option<Task>, now: int, entryId: Id): (r: Store.State)
    ensures existing.None? ==> r == s
    ensures existing.Some? && !HasId(s.tasks, existing.value.id) ==> r == s
    ensures existing.Some? && HasId(s.tasks, existing.value.id) ==>
      var id := existing.value.id;
      var first := Store.Find(s.tasks, id).value;
      && |r.tasks| == |s.tasks|
      && r.hydrated == s.hydrated
      && (forall i | 0 <= i < |s.tasks| && s.tasks[i].id != id :: r.tasks[i] == s.tasks[i])
      && (forall i | 0 <= i < |s.tasks| && s.tasks[i].id == id ::
            r.tasks[i] == first.(status := r.tasks[i].status, updatedAt := now)
            && (IsDone(first.status) ==> r.tasks[i].status == Todo)
            && (!IsDone(first.status) ==> r.tasks[i].status == Done))
      && |r.activity| == |s.activity| + 1 && r.activity[1..] == s.activity
      && r.activity[0].id == entryId && r.activity[0].taskId == id && r.activity[0].timestamp == now
      && (IsDone(first.status) ==> r.activity[0].kind == Reopen)
      && (!IsDone(first.status) ==> r.activity[0].kind == Complete)
      && r.activity[0].meta == Some(Meta(Some(first.title), None))
  {
    match existing
    case None => s
    case Some(t) => Store.ToggleComplete(s, t.id, now, entryId)
  }

  /** `onDelete`: without a task on screen, or until the user confirms the
      alert, nothing happens; once confirmed, no task with its id is left,
      every other task stays, and one `delete` entry is logged with the
      title of the first such task, or '' when none was stored. */
  function OnDelete(s: Store.State, existing: Option<Task>, confirmed: bool, now: int, entryId: Id): (r: Store.State)
    ensures existing.None? || !confirmed ==> r == s
    ensures existing.Some? && confirmed ==>
      && (forall t :: t in r.tasks <==> t in s.tasks && t.id != existing.value.id)
      && r.hydrated == s.hydrated
      && |r.activity| == |s.activity| + 1 && r.activity[1..] == s.activity
      && r.activity[0].id == entryId && r.activity[0].kind == Delete
      && r.activity[0].taskId == existing.value.id && r.activity[0].timestamp == now
      && r.activity[0].meta == Some(Meta(Some(
           if HasId(s.tasks, existing.value.id) then Store.Find(s.tasks, existing.value.id).value.title else ""), None))
  {
    match existing
    case None => s
    case Some(t) => if confirmed then Store.DeleteTask(s, t.id, now, entryId) else s
  }
}

=== FILE: tasklist.dfy ===
/** `groupTasks` of `src/screens/TaskListScreen.js`: filter the tasks by
    text, priority and status, split them into Today / Upcoming / Overdue,
    sort each part by due time and assemble the non-empty sections. */
module TaskList {
  import opened Wrappers
  import opened Dates
  import opened Tasks
  import Text

  /** `Number.MAX_SAFE_INTEGER`, the sort key of a task without a due date. */
  const MaxSafeInteger: int := 9_007_199_254_740_991

  datatype Section = Section(title: string, data: seq<Task>)

  /** The query as the filter uses it: trimmed, then lower-cased. */
  function NormalizeQuery(query: string): string {
    Text.Lower(Text.Trim(query))
  }

  /** An empty normalised query matches everything; otherwise the title or
      the description, lower-cased, must contain it. */
  predicate MatchesText(t: Task, q: string) {
    q == "" || Text.Contains(Text.Lower(t.title), q) || Text.Contains(Text.Lower(t.description), q)
  }

  predicate MatchesPriority(t: Task, priorityFilter: string) {
    priorityFilter == "All" || PriorityName(t.priority) == priorityFilter
  }

  /** 'All' matches everything, 'Done' only done tasks and any other filter
      value only tasks whose status is 'Todo'. */
  predicate MatchesStatus(t: Task, statusFilter: string) {
    if statusFilter == "All" then true
    else if statusFilter == "Done" then StatusName(t.status) == "Done"
    else StatusName(t.status) == "Todo"
  }

  /** The three tests are conjunctive. */
  predicate Matches(t: Task, query: string, priorityFilter: string, statusFilter: string) {
    MatchesText(t, NormalizeQuery(query)) && MatchesPriority(t, priorityFilter) && MatchesStatus(t, statusFilter)
  }

  /** `Array.prototype.filter`: the elements satisfying `p`, in order. */
  function FilterBy(s: seq<Task>, p: Task -> bool): (r: seq<Task>)
    ensures |r| <= |s|
    ensures forall t :: t in r <==> t in s && p(t)
  {
    if |s| == 0 then []
    else (if p(s[0]) then [s[0]] else []) + FilterBy(s[1..], p)
  }

  /** Filtering works piece by piece, so the kept elements stay in the
      order they had in `s`. */
  lemma {:induction false} FilterByAppend(a: seq<Task>, b: seq<Task>, p: Task -> bool)
    ensures FilterBy(a + b, p) == FilterBy(a, p) + FilterBy(b, p)
  {
    if |a| > 0 {
      assert (a + b)[1..] == a[1..] + b;
      FilterByAppend(a[1..], b, p);
    } else {
      assert a + b == b;
    }
  }

  /** Filtering depends only on what the predicate says about the elements. */
  lemma {:induction false} FilterByAgrees(s: seq<Task>, p: Task -> bool, q: Task -> bool)
    requires forall t | t in s :: p(t) == q(t)
    ensures FilterBy(s, p) == FilterBy(s, q)
  {
    if |s| > 0 {
      assert forall t | t in s[1..] :: t in s;
      FilterByAgrees(s[1..], p, q);
    }
  }

  /** Two disjoint filters and the filter of what is left split the sequence:
      together they hold every element exactly as often as `s` does. */
  lemma {:induction false} FilterPartition(s: seq<Task>, p: Task -> bool, q: Task -> bool, rest: Task -> bool)
    requires forall t :: !(p(t) && q(t))
    requires forall t :: rest(t) == (!p(t) && !q(t))
    ensures multiset(FilterBy(s, p)) + multiset(FilterBy(s, q)) + multiset(FilterBy(s, rest)) == multiset(s)
  {
    if |s| > 0 {
      FilterPartition(s[1..], p, q, rest);
      assert s == [s[0]] + s[1..];
    }
  }

  /** The group a task that passes the filter belongs in: Today when its due
      date falls on the current day, Overdue when the date is past and the
      task is not done, Upcoming otherwise (including no due date). */
  function Bucket(t: Task, today: int): string {
    if TodayTest(t, today) then "Today"
    else if OverdueTest(t, today) then "Overdue"
    else "Upcoming"
  }

  /** Overdue never holds a done task; an undated task, and a done task past
      its date, are Upcoming. */
  lemma BucketFacts(t: Task, today: int)
    ensures Bucket(t, today) == "Overdue" ==> !IsDone(t.status)
    ensures t.dueDate.None? ==> Bucket(t, today) == "Upcoming"
    ensures IsDone(t.status) && IsOverdue(t.dueDate, today) ==> Bucket(t, today) == "Upcoming"
  {
  }

  /** The comparator's key: the due time, or `MaxSafeInteger` without one. */
  function SortKey(t: Task): int {
    match t.dueDate
    case None => MaxSafeInteger
    case Some(m) => m.time
  }

  predicate SortedByDue(s: seq<Task>) {
    forall i, j | 0 <= i < j < |s| :: SortKey(s[i]) <= SortKey(s[j])
  }

  /** Puts `t` in front of the first element whose key is not smaller. */
  function Insert(t: Task, s: seq<Task>): (r: seq<Task>)
    requires SortedByDue(s)
    ensures SortedByDue(r)
    ensures multiset(r) == multiset(s) + multiset{t}
    decreases |s|, 0
  {
    if |s| == 0 then [t]
    else if SortKey(t) <= SortKey(s[0]) then
      SortedCons(t, s);
      [t] + s
    else
      var rest := Insert(t, s[1..]);
      assert s == [s[0]] + s[1..];
      HeadBoundsTail(s);
      LowerBoundAfterInsert(s[0], t, s[1..]);
      SortedCons(s[0], rest);
      [s[0]] + rest
  }

  /** A key no larger than `t`'s and than every key of `s` is still a lower
      bound once `t` is inserted. */
  lemma LowerBoundAfterInsert(x: Task, t: Task, s: seq<Task>)
    requires SortedByDue(s)
    requires SortKey(x) <= SortKey(t)
    requires forall y | y in s :: SortKey(x) <= SortKey(y)
    ensures forall y | y in Insert(t, s) :: SortKey(x) <= SortKey(y)
    decreases |s|, 1
  {
    var r := Insert(t, s);
    forall y | y in r
      ensures SortKey(x) <= SortKey(y)
    {
      assert y in multiset(s) + multiset{t};
      if y != t {
        assert y in multiset(s);
      }
    }
  }

  /** The head of a sorted sequence has a key no larger than any after it. */
  lemma HeadBoundsTail(s: seq<Task>)
    requires SortedByDue(s) && |s| > 0
    ensures SortedByDue(s[1..])
    ensures forall y | y in s[1..] :: SortKey(s[0]) <= SortKey(y)
  {
    forall y | y in s[1..]
      ensures SortKey(s[0]) <= SortKey(y)
    {
      var k :| 0 <= k < |s| - 1 && s[1..][k] == y;
      assert s[k + 1] == y;
    }
  }

  /** A key no larger than any in a sorted sequence can go in front. */
  lemma SortedCons(x: Task, s: seq<Task>)
    requires SortedByDue(s)
    requires forall y | y in s :: SortKey(x) <= SortKey(y)
    ensures SortedByDue([x] + s)
  {
    var r := [x] + s;
    forall i, j | 0 <= i < j < |r|
      ensures SortKey(r[i]) <= SortKey(r[j])
    {
      if i > 0 {
        assert r[i] == s[i - 1] && r[j] == s[j - 1];
      } else {
        assert r[j] in s;
      }
    }
  }

  /** `sort(sorter)`: a stable sort by ascending key (insertion sort, each
      element going in front of the later ones with an equal key). */
  function SortByDue(s: seq<Task>): (r: seq<Task>)
    ensures SortedByDue(r)
    ensures multiset(r) == multiset(s)
  {
    if |s| == 0 then []
    else
      assert s == [s[0]] + s[1..];
      Insert(s[0], SortByDue(s[1..]))
  }

  /** With valid due dates, every undated task of a sorted section comes
      after every dated one. */
  lemma UndatedLast(s: seq<Task>)
    requires SortedByDue(s)
    requires forall i | 0 <= i < |s| && s[i].dueDate.Some? :: ValidMoment(s[i].dueDate.value)
    ensures forall i, j | 0 <= i < j < |s| :: s[i].dueDate.None? ==> s[j].dueDate.None?
  {
  }

  /** Assembles the sections in the order Today, Upcoming, Overdue, leaving
      out empty groups; with all three empty, one empty 'Tasks' section. */
  function Sections(todayGroup: seq<Task>, upcoming: seq<Task>, overdue: seq<Task>): (r: seq<Section>)
    ensures 1 <= |r| <= 3
    ensures forall i | 0 <= i < |r| :: r[i].data in [todayGroup, upcoming, overdue, []]
    ensures r == [Section("Tasks", [])]
      || forall i | 0 <= i < |r| :: |r[i].data| > 0 && TitleRank(r[i].title) < 3
    ensures forall i, j | 0 <= i < j < |r| :: TitleRank(r[i].title) < TitleRank(r[j].title)
  {
    var sections :=
      (if |todayGroup| > 0 then [Section("Today", todayGroup)] else [])
      + (if |upcoming| > 0 then [Section("Upcoming", upcoming)] else [])
      + (if |overdue| > 0 then [Section("Overdue", overdue)] else []);
    if |sections| == 0 then [Section("Tasks", [])] else sections
  }

  /** Position of a section title in the fixed order. */
  function TitleRank(title: string): nat {
    if title == "Today" then 0
    else if title == "Upcoming" then 1
    else if title == "Overdue" then 2
    else 3
  }

  /** `t.dueDate && isDueToday(t.dueDate)` */
  predicate TodayTest(t: Task, today: int) {
    t.dueDate.Some? && IsDueToday(t.dueDate, today)
  }

  /** `isOverdue(t.dueDate) && t.status !== 'Done'` */
  predicate OverdueTest(t: Task, today: int) {
    IsOverdue(t.dueDate, today) && !IsDone(t.status)
  }

  /** The tasks due today, in their filtered order. */
  function TodayGroup(filtered: seq<Task>, today: int): (r: seq<Task>)
    ensures forall t :: t in r <==> t in filtered && Bucket(t, today) == "Today"
  {
    FilterBy(filtered, (t: Task) => TodayTest(t, today))
  }

  /** The overdue tasks that are not done, in their filtered order. */
  function OverdueGroup(filtered: seq<Task>, today: int): (r: seq<Task>)
    ensures forall t :: t in r <==> t in filtered && Bucket(t, today) == "Overdue"
  {
    FilterBy(filtered, (t: Task) => OverdueTest(t, today))
  }

  /** `!today.includes(t) && !overdue.includes(t)`: the rest. */
  function UpcomingGroup(filtered: seq<Task>, today: int): (r: seq<Task>)
    ensures forall t :: t in r <==> t in filtered && Bucket(t, today) == "Upcoming"
  {
    var todayGroup := TodayGroup(filtered, today);
    var overdue := OverdueGroup(filtered, today);
    FilterBy(filtered, (t: Task) => t !in todayGroup && t !in overdue)
  }

  function Filtered(tasks: seq<Task>, query: string, priorityFilter: string, statusFilter: string): seq<Task> {
    FilterBy(tasks, (t: Task) => Matches(t, query, priorityFilter, statusFilter))
  }

  /** `groupTasks`: never empty; every section sorted by due time; either the
      single empty 'Tasks' placeholder or only non-empty sections, each title
      at most once and in the order Today, Upcoming, Overdue. */
  function GroupTasks(tasks: seq<Task>, query: string, priorityFilter: string, statusFilter: string, today: int): (r: seq<Section>)
    ensures 1 <= |r| <= 3
    ensures forall i | 0 <= i < |r| :: SortedByDue(r[i].data)
    ensures r == [Section("Tasks", [])]
      || forall i | 0 <= i < |r| :: |r[i].data| > 0 && TitleRank(r[i].title) < 3
    ensures forall i, j | 0 <= i < j < |r| :: TitleRank(r[i].title) < TitleRank(r[j].title)
  {
    var filtered := Filtered(tasks, query, priorityFilter, statusFilter);
    var a := SortByDue(TodayGroup(filtered, today));
    var b := SortByDue(UpcomingGroup(filtered, today));
    var c := SortByDue(OverdueGroup(filtered, today));
    var r := Sections(a, b, c);
    SortedChoices(a, b, c, r);
    r
  }

  /** Sections whose data are drawn from sorted groups are sorted. */
  lemma SortedChoices(a: seq<Task>, b: seq<Task>, c: seq<Task>, r: seq<Section>)
    requires SortedByDue(a) && SortedByDue(b) && SortedByDue(c)
    requires forall i | 0 <= i < |r| :: r[i].data in [a, b, c, []]
    ensures forall i | 0 <= i < |r| :: SortedByDue(r[i].data)
  {
    forall i | 0 <= i < |r|
      ensures SortedByDue(r[i].data)
    {
      var d := r[i].data;
      assert d == a || d == b || d == c || d == [];
    }
  }

  /** Task `t` is listed in a section titled `title`. */
  predicate Placed(r: seq<Section>, title: string, t: Task) {
    exists i | 0 <= i < |r| :: r[i].title == title && t in r[i].data
  }

  lemma SectionsPlacement(a: seq<Task>, b: seq<Task>, c: seq<Task>, title: string, t: Task)
    ensures Placed(Sections(a, b, c), title, t) <==>
      (title == "Today" && t in a) || (title == "Upcoming" && t in b) || (title == "Overdue" && t in c)
  {
    var r := Sections(a, b, c);
    if title == "Today" && t in a {
      assert r[0].title == title && t in r[0].data;
    }
    if title == "Upcoming" && t in b {
      var i := if |a| > 0 then 1 else 0;
      assert r[i].title == title && t in r[i].data;
    }
    if title == "Overdue" && t in c {
      var i := (if |a| > 0 then 1 else 0) + (if |b| > 0 then 1 else 0);
      assert r[i].title == title && t in r[i].data;
    }
  }

  /** The three groups split the filtered tasks by `Bucket`. */
  lemma GroupMembership(filtered: seq<Task>, today: int, t: Task)
    ensures t in TodayGroup(filtered, today) <==> t in filtered && Bucket(t, today) == "Today"
    ensures t in OverdueGroup(filtered, today) <==> t in filtered && Bucket(t, today) == "Overdue"
    ensures t in UpcomingGroup(filtered, today) <==> t in filtered && Bucket(t, today) == "Upcoming"
  {
  }

  /** A task is listed under a title exactly when it is in the input, passes
      all three filters, and `Bucket` sends it there: so every filtered task
      is in exactly one of Today / Upcoming / Overdue and no other task is
      listed at all. */
  lemma Placement(tasks: seq<Task>, query: string, priorityFilter: string, statusFilter: string, today: int,
                  title: string, t: Task)
    ensures Placed(GroupTasks(tasks, query, priorityFilter, statusFilter, today), title, t) <==>
      t in tasks && Matches(t, query, priorityFilter, statusFilter) && Bucket(t, today) == title
  {
    var filtered := Filtered(tasks, query, priorityFilter, statusFilter);
    var a := TodayGroup(filtered, today);
    var b := UpcomingGroup(filtered, today);
    var c := OverdueGroup(filtered, today);
    SortKeepsMembers(a, t);
    SortKeepsMembers(b, t);
    SortKeepsMembers(c, t);
    SectionsPlacement(SortByDue(a), SortByDue(b), SortByDue(c), title, t);
    GroupMembership(filtered, today, t);
    assert t in filtered <==> t in tasks && Matches(t, query, priorityFilter, statusFilter);
  }

  lemma SortKeepsMembers(s: seq<Task>, t: Task)
    ensures t in SortByDue(s) <==> t in s
  {
    assert multiset(SortByDue(s)) == multiset(s);
    assert t in SortByDue(s) <==> t in multiset(SortByDue(s));
  }

  /** Counting repetitions too, Today, Upcoming and Overdue together hold
      exactly the filtered tasks. */
  lemma GroupsPartitionFiltered(tasks: seq<Task>, query: string, priorityFilter: string, statusFilter: string, today: int)
    ensures var filtered := Filtered(tasks, query, priorityFilter, statusFilter);
      multiset(TodayGroup(filtered, today)) + multiset(UpcomingGroup(filtered, today))
        + multiset(OverdueGroup(filtered, today)) == multiset(filtered)
  {
    var filtered := Filtered(tasks, query, priorityFilter, statusFilter);
    var p: Task -> bool := (t: Task) => TodayTest(t, today);
    var q: Task -> bool := (t: Task) => OverdueTest(t, today);
    var rest: Task -> bool := (t: Task) => !p(t) && !q(t);
    var a := TodayGroup(filtered, today);
    var c := OverdueGroup(filtered, today);
    FilterPartition(filtered, p, q, rest);
    FilterByAgrees(filtered, rest, (t: Task) => t !in a && t !in c);
  }

  /** The text filter ignores case in the query, and a blank query (empty or
      only white space) lets every task through. */
  lemma TextFilterFacts(t: Task, query: string)
    ensures MatchesText(t, NormalizeQuery(Text.Lower(query))) == MatchesText(t, NormalizeQuery(query))
    ensures Text.AllSpace(query) ==> MatchesText(t, NormalizeQuery(query))
  {
    Text.TrimLowerCommute(query);
    Text.LowerIdempotent(Text.Trim(query));
  }
}

=== FILE: tasks.dfy ===
/** The records the store keeps: tasks, the partial objects handed to
    `addTask` and `updateTask`, and activity entries. The source works with
    untyped JavaScript objects; the model keeps their fields and makes every
    optional key an `Option`. */
module Tasks {
  import opened Wrappers
  import opened Dates

  /** Task and activity ids are opaque uuid strings. */
  type Id = string

  datatype Priority = Low | Medium | High

  function PriorityName(p: Priority): string {
    match p
    case Low => "Low"
    case Medium => "Medium"
    case High => "High"
  }

  /** The store never validates a status, so besides the two the app sets it
      may hold any other string that arrived in a draft, a change set or stored
      data. Every comparison the source makes is on the string itself, so the
      model compares `StatusName`s. */
  datatype Status = Todo | Done | Other(name: string)

  function StatusName(s: Status): string {
    match s
    case Todo => "Todo"
    case Done => "Done"
    case Other(name) => name
  }

  /** `status === 'Done'` */
  predicate IsDone(s: Status) {
    StatusName(s) == "Done"
  }

  /** Timestamps are the clock's readings; later readings are larger. */
  datatype Task = Task(
    id: Id,
    title: string,
    description: string,
    priority: Priority,
    dueDate: Option<Moment>,
    status: Status,
    tags: seq<string>,
    createdAt: int,
    updatedAt: int)

  /** The object `addTask` receives: a title and any of the optional fields. */
  datatype Draft = Draft(
    title: string,
    description: Option<string>,
    priority: Option<Priority>,
    dueDate: Option<Moment>,
    status: Option<Status>,
    tags: Option<seq<string>>)

  /** The object `updateTask` spreads over the previous task: any subset of a
      task's keys. `dueDate: Some(None)` is an explicit `null`. */
  datatype Changes = Changes(
    id: Option<Id>,
    title: Option<string>,
    description: Option<string>,
    priority: Option<Priority>,
    dueDate: Option<Option<Moment>>,
    status: Option<Status>,
    tags: Option<seq<string>>,
    createdAt: Option<int>,
    updatedAt: Option<int>)

  /** The five kinds the store writes, and any other `type` string found in
      stored data. */
  datatype ActivityKind = Create | Update | Complete | Reopen | Delete | OtherKind(name: string)

  /** The `meta` object: the task's title at the time and, for updates, the
      change set. Stored entries may lack either key, or `meta` altogether. */
  datatype Meta = Meta(title: Option<string>, changes: Option<Changes>)

  datatype ActivityEntry = ActivityEntry(
    id: Id,
    kind: ActivityKind,
    taskId: Id,
    timestamp: int,
    meta: Option<Meta>)

  /** Some task in the list carries this id. */
  predicate HasId(tasks: seq<Task>, id: Id) {
    exists i | 0 <= i < |tasks| :: tasks[i].id == id
  }
}

=== FILE: text.dfy ===
/** The string primitives the screens and the store rely on: JavaScript's
    `trim`, an ASCII `toLowerCase`, `includes`, `split` on one character and
    `join`. Strings are sequences of characters. */
module Text {

  /** White space as `String.prototype.trim` and the regular-expression class
      `\s` see it (ECMAScript's WhiteSpace and LineTerminator): the controls
      TAB, LF, VT, FF, CR, the byte-order mark, the line and paragraph
      separators, and the Unicode space separators (category Zs): the space,
      NBSP, U+1680, U+2000 to U+200A, U+202F, U+205F and U+3000. */
  predicate IsSpace(c: char) {
    || c == '\t' || c == '\n' || c == '\U{000B}' || c == '\U{000C}' || c == '\r'
    || c == '\U{FEFF}' || c == '\U{2028}' || c == '\U{2029}'
    || c == ' ' || c == '\U{00A0}' || c == '\U{1680}'
    || ('\U{2000}' <= c <= '\U{200A}')
    || c == '\U{202F}' || c == '\U{205F}' || c == '\U{3000}'
  }

  predicate AllSpace(s: string) {
    forall i | 0 <= i < |s| :: IsSpace(s[i])
  }

  predicate NoSpace(s: string) {
    forall i | 0 <= i < |s| :: !IsSpace(s[i])
  }

  /** No white space at either end. */
  predicate IsTrimmed(s: string) {
    |s| == 0 || (!IsSpace(s[0]) && !IsSpace(s[|s| - 1]))
  }

  /** `needle` occurs in `hay` as a contiguous run (`String.prototype.includes`);
      the empty string occurs everywhere. */
  predicate Contains(hay: string, needle: string) {
    exists i | 0 <= i <= |hay| - |needle| :: needle <= hay[i..]
  }

  /** Drops the leading white space: what is left is a suffix of `s`. */
  function TrimStart(s: string): (r: string)
    ensures |r| <= |s|
    ensures |r| == 0 || !IsSpace(r[0])
    ensures r == s[|s| - |r|..]
    ensures forall i | 0 <= i < |s| - |r| :: IsSpace(s[i])
  {
    if |s| > 0 && IsSpace(s[0]) then TrimStart(s[1..]) else s
  }

  /** Drops the trailing white space: what is left is a prefix of `s`. */
  function TrimEnd(s: string): (r: string)
    ensures |r| <= |s|
    ensures |r| == 0 || !IsSpace(r[|r| - 1])
    ensures r == s[..|r|]
    ensures forall i | |r| <= i < |s| :: IsSpace(s[i])
  {
    if |s| > 0 && IsSpace(s[|s| - 1]) then TrimEnd(s[..|s| - 1]) else s
  }

  /** `String.prototype.trim`: the leading white space and then the trailing
      white space cut off, so the cut-off ends are white space only
      (`TrimCutsOnlySpace`) and no other cut gives a trimmed result
      (`TrimIsUnique`). It is empty exactly when `s` is all white space. */
  function Trim(s: string): (r: string)
    ensures r == TrimEnd(TrimStart(s))
    ensures IsTrimmed(r)
    ensures r == "" <==> AllSpace(s)
  {
    TrimEnd(TrimStart(s))
  }

  /** The trim is an infix of `s`, and what lies outside it is white space. */
  lemma TrimCutsOnlySpace(s: string)
    ensures exists i, j | 0 <= i <= j <= |s| :: Trim(s) == s[i..j] && AllSpace(s[..i]) && AllSpace(s[j..])
  {
    var front := TrimStart(s);
    var r := TrimEnd(front);
    var i := |s| - |front|;
    var j := i + |r|;
    assert r == s[i..j];
    forall k | 0 <= k < i
      ensures IsSpace(s[..i][k])
    {
      assert s[..i][k] == s[k];
    }
    forall k | 0 <= k < |s| - j
      ensures IsSpace(s[j..][k])
    {
      assert s[j..][k] == front[|r| + k];
    }
    assert Trim(s) == s[i..j] && AllSpace(s[..i]) && AllSpace(s[j..]);
  }

  /** Trimming has a single possible outcome: an infix with no white space at
      its ends, cut from `s` by removing only white space, is the trim. */
  lemma TrimIsUnique(s: string, i: int, j: int)
    requires 0 <= i <= j <= |s|
    requires AllSpace(s[..i]) && AllSpace(s[j..])
    requires IsTrimmed(s[i..j]) && s[i..j] != ""
    ensures Trim(s) == s[i..j]
  {
    var r := Trim(s);
    TrimCutsOnlySpace(s);
    var i', j' :| 0 <= i' <= j' <= |s| && r == s[i'..j'] && AllSpace(s[..i']) && AllSpace(s[j'..]);
    assert !IsSpace(s[i]) by {
      assert s[i..j][0] == s[i];
    }
    assert r != "" by {
      assert !AllSpace(s);
    }
    SpaceCutsAgree(s, i, j, i', j');
  }

  /** Two ways of cutting only white space off both ends of `s` that leave a
      non-empty trimmed infix are the same cut. */
  lemma SpaceCutsAgree(s: string, i: int, j: int, i': int, j': int)
    requires 0 <= i <= j <= |s| && 0 <= i' <= j' <= |s|
    requires AllSpace(s[..i]) && AllSpace(s[j..]) && AllSpace(s[..i']) && AllSpace(s[j'..])
    requires IsTrimmed(s[i..j]) && s[i..j] != ""
    requires IsTrimmed(s[i'..j']) && s[i'..j'] != ""
    ensures i == i' && j == j'
  {
    assert forall k | 0 <= k < i :: IsSpace(s[k]) by {
      assert forall k | 0 <= k < i :: s[..i][k] == s[k];
    }
    assert forall k | j <= k < |s| :: IsSpace(s[k]) by {
      assert forall k | j <= k < |s| :: s[j..][k - j] == s[k];
    }
    assert forall k | 0 <= k < i' :: IsSpace(s[k]) by {
      assert forall k | 0 <= k < i' :: s[..i'][k] == s[k];
    }
    assert forall k | j' <= k < |s| :: IsSpace(s[k]) by {
      assert forall k | j' <= k < |s| :: s[j'..][k - j'] == s[k];
    }
    assert !IsSpace(s[i]) && !IsSpace(s[j - 1]) by {
      assert s[i..j][0] == s[i];
      assert s[i..j][j - i - 1] == s[j - 1];
    }
    assert !IsSpace(s[i']) && !IsSpace(s[j' - 1]) by {
      assert s[i'..j'][0] == s[i'];
      assert s[i'..j'][j' - i' - 1] == s[j' - 1];
    }
  }

  /** Trimming introduces no character that was not there. */
  lemma TrimAddsNothing(s: string, c: char)
    requires c !in s
    ensures c !in Trim(s)
  {
    var r := Trim(s);
    TrimCutsOnlySpace(s);
    var i, j :| 0 <= i <= j <= |s| && r == s[i..j] && AllSpace(s[..i]) && AllSpace(s[j..]);
    forall k | 0 <= k < |r|
      ensures r[k] != c
    {
      assert r[k] == s[i + k];
    }
  }

  /** Trimming changes nothing that is already trimmed. */
  lemma TrimOfTrimmed(s: string)
    requires IsTrimmed(s)
    ensures Trim(s) == s
  {
  }

  /** A leading white-space character makes no difference to `Trim`. */
  lemma TrimDropsLeadingSpace(c: char, s: string)
    requires IsSpace(c)
    ensures Trim([c] + s) == Trim(s)
  {
    assert ([c] + s)[1..] == s;
  }

  function LowerChar(c: char): (r: char)
    ensures IsSpace(r) == IsSpace(c)
  {
    if 'A' <= c <= 'Z' then (c as int + 32) as char else c
  }

  /** `toLowerCase` restricted to ASCII letters: every other character is kept. */
  function Lower(s: string): (r: string)
    ensures |r| == |s|
    ensures forall i | 0 <= i < |s| :: r[i] == LowerChar(s[i])
  {
    seq(|s|, i requires 0 <= i < |s| => LowerChar(s[i]))
  }

  /** Lower-casing twice is lower-casing once. */
  lemma LowerIdempotent(s: string)
    ensures Lower(Lower(s)) == Lower(s)
  {
  }

  lemma {:induction false} TrimStartLower(s: string)
    ensures TrimStart(Lower(s)) == Lower(TrimStart(s))
    decreases |s|
  {
    if |s| > 0 {
      assert Lower(s)[1..] == Lower(s[1..]);
    }
    if |s| > 0 && IsSpace(s[0]) {
      TrimStartLower(s[1..]);
    }
  }

  lemma {:induction false} TrimEndLower(s: string)
    ensures TrimEnd(Lower(s)) == Lower(TrimEnd(s))
    decreases |s|
  {
    if |s| > 0 {
      assert Lower(s)[..|s| - 1] == Lower(s[..|s| - 1]);
    }
    if |s| > 0 && IsSpace(s[|s| - 1]) {
      TrimEndLower(s[..|s| - 1]);
    }
  }

  /** Lower-casing never turns a character into white space or back, so it
      commutes with trimming. */
  lemma TrimLowerCommute(s: string)
    ensures Trim(Lower(s)) == Lower(Trim(s))
  {
    TrimStartLower(s);
    TrimEndLower(TrimStart(s));
  }

  /** `String.prototype.split` on a single separator character: the pieces
      between separators, in order, always at least one. */
  function Split(s: string, sep: char): (r: seq<string>)
    ensures |r| >= 1
    ensures forall i | 0 <= i < |r| :: sep !in r[i]
    decreases |s|
  {
    if |s| == 0 then [""]
    else
      var rest := Split(s[1..], sep);
      if s[0] == sep then [""] + rest
      else [[s[0]] + rest[0]] + rest[1..]
  }

  /** `Array.prototype.join`: the parts with `sep` between neighbours. */
  function Join(parts: seq<string>, sep: string): string
  {
    if |parts| == 0 then ""
    else if |parts| == 1 then parts[0]
    else parts[0] + sep + Join(parts[1..], sep)
  }

  lemma {:induction false} JoinConsChar(c: char, parts: seq<string>, sep: string)
    requires |parts| >= 1
    ensures Join([[c] + parts[0]] + parts[1..], sep) == [c] + Join(parts, sep)
  {
    var q := [[c] + parts[0]] + parts[1..];
    assert q[1..] == parts[1..];
  }

  /** Splitting and re-joining on the same separator gives the string back. */
  lemma {:induction false} JoinSplit(s: string, sep: char)
    ensures Join(Split(s, sep), [sep]) == s
    decreases |s|
  {
    if |s| > 0 {
      var rest := Split(s[1..], sep);
      JoinSplit(s[1..], sep);
      if s[0] == sep {
        assert ([""] + rest)[1..] == rest;
        assert s == [sep] + s[1..];
      } else {
        JoinConsChar(s[0], rest, [sep]);
        assert s == [s[0]] + s[1..];
      }
    }
  }

  /** A piece with no separator splits to itself. */
  lemma {:induction false} SplitWithoutSeparator(a: string, sep: char)
    requires sep !in a
    ensures Split(a, sep) == [a]
    decreases |a|
  {
    if |a| > 0 {
      assert sep !in a[1..];
      SplitWithoutSeparator(a[1..], sep);
      assert [a[0]] + a[1..] == a;
    }
  }

  /** A first character other than the separator joins the first piece. */
  lemma SplitLeadingChar(c: char, s: string, sep: char)
    requires c != sep
    ensures Split([c] + s, sep) == [[c] + Split(s, sep)[0]] + Split(s, sep)[1..]
  {
    assert ([c] + s)[1..] == s;
  }

  /** A separator-free piece followed by the separator splits off first. */
  lemma {:induction false} SplitAfterPiece(a: string, sep: char, b: string)
    requires sep !in a
    ensures Split(a + [sep] + b, sep) == [a] + Split(b, sep)
    decreases |a|
  {
    var s := a + [sep] + b;
    if |a| == 0 {
      assert s[1..] == b;
    } else {
      assert s[1..] == a[1..] + [sep] + b;
      assert sep !in a[1..];
      SplitAfterPiece(a[1..], sep, b);
      assert [a[0]] + a[1..] == a;
    }
  }

  /** Joining separator-free parts and splitting again gives the parts back. */
  lemma {:induction false} SplitJoin(parts: seq<string>, sep: char)
    requires |parts| >= 1
    requires forall i | 0 <= i < |parts| :: sep !in parts[i]
    ensures Split(Join(parts, [sep]), sep) == parts
  {
    if |parts| == 1 {
      SplitWithoutSeparator(parts[0], sep);
    } else {
      SplitAfterPiece(parts[0], sep, Join(parts[1..], [sep]));
      SplitJoin(parts[1..], sep);
      assert [parts[0]] + parts[1..] == parts;
    }
  }
}

=== FILE: wrappers.dfy ===
/** Values that may be missing: what the source leaves `null`, `undefined`
    or out of an object altogether. */
module Wrappers {

  datatype Option<T> = None | Some(value: T) {

    /** `x ?? fallback` for a value that is never falsy: the value when there
        is one, otherwise the fallback. */
    function GetOr(fallback: T): (r: T)
      ensures Some? ==> r == value
      ensures None? ==> r == fallback
    {
      if Some? then value else fallback
    }
  }
}
